=== FILE: README.md ===
# Item container model

A Dafny model of the game server's item container, `ItemContainer`. A
container is a fixed-capacity array of optional item stacks with a stacking
policy (regular or full-stacking) and a dirty flag. It serves as an
inventory, a piece of equipment or, at exactly 800 slots, a bank. Its
transactional `add` and `remove` return a `Result`: the amount requested,
the amount completed, and the slots touched.

Around them sit:

- the counting queries `count(int)`, `count(Integer...)` and `countSlot`;
- the scans `findFirst`, `findAll`, `slotOf`, `nextFreeSlot`, `freeSlots`,
  `occupiedSlots`, `full` and `isEmpty`;
- the positional operations `get`, `getId`, `hasAt`, `set`, `replace` and
  `swap`;
- the reorganisations `pack`, `insert`, `empty` and `restore`;
- the dirty flag.

The model is functional. A `Container` value holds the slots as
`seq<Option<Item>>`, the policy and the flag. Every operation is a function
that returns the new container, with the `Result` or the boolean the source
returns. The source's loops are also written as methods, with loop
invariants:

- the circular scan shared by `add` and `remove`;
- the compaction loops of `pack` and `insert`.

Each method is proved equal to the functional definition.

Java `int` is the subset type `Int32`. The narrowing casts `(int)` and the
`int` subtractions of the `add` pre-check wrap as in Java (`ToInt32`).
`Item` becomes a datatype `{id, amount, hasProperties}`. The item-definition
lookup is a parameter `defs: Int32 -> Definition` giving `stackable`,
`placeheld` and `pheld14401`.

The files and their modules:

| file | module | contents |
|---|---|---|
| items.dfy | `Items` | the values |
| slots.dfy | `Slots` | scans and positional queries |
| counting.dfy | `Counting` | the counts |
| scan.dfy | `Scan` | the circular scan |
| compaction.dfy | `Compaction` | pack and insert |
| containers.dfy | `Containers` | direct operations |
| transactions.dfy | `Transactions` | `add` and `remove` |
| add_laws.dfy | `AddLaws` | properties of `add` |
| remove_laws.dfy | `RemoveLaws` | properties of `remove` |
| round_trips.dfy | `RoundTrips` | `add` then `remove` |

Two behaviours of the code are easy to misread:

- The unit pre-check of a non-forced `add` compares the amount with the
  capacity less `count(id)`, not with the number of free slots. So a
  non-forced unit add can complete only part of the request and still
  change the container (`RoundTrips.UnitAddCanBePartial`).
- The start slot is only raised to 0 when negative. It is not reduced into
  the capacity.

## Model

All paths are in `src/main/java/io/nozemi/runescape/model/item/ItemContainer.java`.

| member | source | states |
|---|---|---|
| Items.NewContainer | src/main/java/io/nozemi/runescape/model/item/ItemContainer.java:21-27 | a new container has the requested capacity, every slot empty, and starts dirty |
| Items.ToInt32 | src/main/java/io/nozemi/runescape/model/item/ItemContainer.java:361 | the `(int)` narrowing keeps a value already in `int` range, and moves a value at most one 2^32 step outside that range by exactly 2^32 |
| Items.ToInt32Wraps | src/main/java/io/nozemi/runescape/model/item/ItemContainer.java:361 | the `(int)` narrowing differs from its input by a multiple of 2^32, and is the only `int` that does |
| Slots.NextFreeSlot | src/main/java/io/nozemi/runescape/model/item/ItemContainer.java:47-54 | -1 exactly when every slot is taken; otherwise an empty slot with every slot before it taken |
| Slots.FreeSlots | src/main/java/io/nozemi/runescape/model/item/ItemContainer.java:90-99 | the capacity less the number of occupied slots; 0 exactly when every slot is taken; the capacity exactly when every slot is empty |
| Slots.OccupiedSlots | src/main/java/io/nozemi/runescape/model/item/ItemContainer.java:109-111 | the capacity less the free slots is the number of occupied slots; 0 exactly when every slot is empty |
| Slots.FullIffNoFreeSlots | src/main/java/io/nozemi/runescape/model/item/ItemContainer.java:86-115 | `full` holds exactly when no slot is free, and `isEmpty` exactly when no slot is occupied |
| Slots.FindFirst | src/main/java/io/nozemi/runescape/model/item/ItemContainer.java:500-507 | nothing exactly when no slot holds the id; otherwise the lowest slot holding it, with its item |
| Slots.FindFirstOf | src/main/java/io/nozemi/runescape/model/item/ItemContainer.java:509-516 | nothing exactly when no slot holds any of the ids; otherwise the lowest such slot, with its item |
| Slots.FindAll | src/main/java/io/nozemi/runescape/model/item/ItemContainer.java:518-527 | every slot holding the id, each once, with its item, in increasing slot order, and no other |
| Slots.SlotOfIsFindFirst | src/main/java/io/nozemi/runescape/model/item/ItemContainer.java:557-564 | `slotOf` is -1 exactly when `findFirst` finds nothing, and otherwise names the same slot |
| Slots.HasAtId | src/main/java/io/nozemi/runescape/model/item/ItemContainer.java:429-432 | `hasAt(slot, id)` holds exactly when the slot is occupied and `getId` there is the id |
| Slots.PositionalQueriesAgree | src/main/java/io/nozemi/runescape/model/item/ItemContainer.java:484-498 | `hasAt(slot)` holds exactly when `get` returns an item; then `hasAt(slot, getId(slot))` holds; otherwise `getId` is -1 |
| Counting.CountOfStackable | src/main/java/io/nozemi/runescape/model/item/ItemContainer.java:345-362 | for a stackable definition, `count` is the amount of the first stack only (0 when there is none) |
| Counting.CountOfDiscrete | src/main/java/io/nozemi/runescape/model/item/ItemContainer.java:345-362 | for any other definition, `count` is the sum over every slot holding the id, saturated at MAX |
| Counting.CountOfValid | src/main/java/io/nozemi/runescape/model/item/ItemContainer.java:345-362 | with positive amounts, `count` lies in [0, MAX] and is 0 exactly when no slot holds the id |
| Counting.CountAgainstCountAny | src/main/java/io/nozemi/runescape/model/item/ItemContainer.java:377-388 | `count(Integer...)` sums every match with no early stop; it never reports less than `count(id)`, and equals it for a non-stackable id or a single stack |
| Counting.CountIsCountSlotAtFirst | src/main/java/io/nozemi/runescape/model/item/ItemContainer.java:364-375 | for a stackable id, `count` equals `countSlot` at the id's first slot |
| Scan.PosIsMod | src/main/java/io/nozemi/runescape/model/item/ItemContainer.java:246 | the slot visited at step x is `(x + start) % size` |
| Scan.ScanHitsFacts | src/main/java/io/nozemi/runescape/model/item/ItemContainer.java:245-254 | the circular scan meets the matching slots at or after the start in increasing order, then those before it; it meets each matching slot once and no other slot |
| Scan.ScanStamp | src/main/java/io/nozemi/runescape/model/item/ItemContainer.java:243-257 | the scan loop overwrites the first `min(amount, hits)` matching slots in scan order, reports them in that order, and leaves `amount` less their number |
| Compaction.PackFacts | src/main/java/io/nozemi/runescape/model/item/ItemContainer.java:410-419 | packing keeps the capacity and the occupied items in their order, leaves no empty slot before an occupied one, and packing again changes nothing |
| Compaction.PackLoop | src/main/java/io/nozemi/runescape/model/item/ItemContainer.java:410-419 | the copying loop of `pack` yields the packed slots |
| Compaction.InsertLoop | src/main/java/io/nozemi/runescape/model/item/ItemContainer.java:390-408 | the copying loop of `insert` yields the inserted slots |
| Compaction.InsertPlacesItem | src/main/java/io/nozemi/runescape/model/item/ItemContainer.java:396-403 | the inserted item lands after the occupied slots before `at`, which come first in their order |
| Compaction.InsertKeepsOrder | src/main/java/io/nozemi/runescape/model/item/ItemContainer.java:390-408 | after `insert` the occupied items are those before `at`, then the item, then those from `at` on, in order, and one more slot is occupied when the item is present |
| Containers.Set | src/main/java/io/nozemi/runescape/model/item/ItemContainer.java:337-343 | `set` keeps the capacity, marks the container dirty, and never stores an amount below 1 |
| Containers.SetThenGet | src/main/java/io/nozemi/runescape/model/item/ItemContainer.java:337-343 | after `set`, `get` at that slot returns the item, or nothing for an amount below 1; every other slot reads as before |
| Containers.Replace | src/main/java/io/nozemi/runescape/model/item/ItemContainer.java:74-84 | throws (`None`) exactly when the slot is past the end; otherwise `getId` at the slot is the id given (-1 empties it), only that slot changes, and the container is dirty |
| Containers.Empty | src/main/java/io/nozemi/runescape/model/item/ItemContainer.java:117-122 | afterwards the container is empty, every slot is free, and it is dirty |
| Containers.Swap | src/main/java/io/nozemi/runescape/model/item/ItemContainer.java:473-482 | succeeds exactly when both indices are in range and changes nothing otherwise; on success it exchanges the two slots, keeps every other slot and the multiset of slots, and marks dirty |
| Containers.SwapTwice | src/main/java/io/nozemi/runescape/model/item/ItemContainer.java:473-482 | swapping the same two slots twice restores the slots |
| Containers.Restore | src/main/java/io/nozemi/runescape/model/item/ItemContainer.java:547-555 | slot i takes the snapshot's entry i, or empty past the snapshot's end; the dirty flag is left as it was |
| Containers.RestoreRollsBack | src/main/java/io/nozemi/runescape/model/item/ItemContainer.java:547-555 | restoring a same-capacity snapshot gives back exactly its slots, whatever happened since |
| Containers.Pack | src/main/java/io/nozemi/runescape/model/item/ItemContainer.java:410-419 | `pack` keeps the occupied items in order and the free count, leaves no gap, and marks dirty |
| Containers.PackIdempotent | src/main/java/io/nozemi/runescape/model/item/ItemContainer.java:410-419 | packing twice equals packing once, and packing keeps every amount positive |
| Containers.Insert | src/main/java/io/nozemi/runescape/model/item/ItemContainer.java:390-408 | refused, with no change, exactly when the container is full or `at` is past the end; a negative `at` drops the item but still reports success |
| Containers.DirtyCycle | src/main/java/io/nozemi/runescape/model/item/ItemContainer.java:124-134 | `clean` clears the flag and `makeDirty` sets it, neither touches the slots, and a write after `clean` shows as dirty |
| Transactions.HeldIsFirstStack | src/main/java/io/nozemi/runescape/model/item/ItemContainer.java:189-199 | for a stackable item with a stack present, the amount `add` measures against is that first stack's amount, under either policy |
| Transactions.Unplace | src/main/java/io/nozemi/runescape/model/item/ItemContainer.java:210-218 | when the placeholder rule applies, the first placeholder slot is cleared, the container is dirty and the scan starts there; otherwise nothing changes |
| Transactions.Add | src/main/java/io/nozemi/runescape/model/item/ItemContainer.java:175-259 | keeps capacity and policy; requested is the amount or -1; nothing changes for an absent item or non-positive amount; 0 <= completed <= requested; reported slots are in range; any change marks dirty; positive amounts stay positive |
| Transactions.Remove | src/main/java/io/nozemi/runescape/model/item/ItemContainer.java:275-330 | keeps capacity and policy; nothing changes for an absent item, a non-positive amount, a `count` below 1, or (not forced) a request above `count`; completed <= requested; any change marks dirty |
| Transactions.AddUnitsLoop | src/main/java/io/nozemi/runescape/model/item/ItemContainer.java:242-257 | the unit-placing loop of `add` computes exactly the unit branch |
| Transactions.TakeUnitsLoop | src/main/java/io/nozemi/runescape/model/item/ItemContainer.java:312-328 | the unit-clearing loop of `remove` computes exactly the unit branch |
| Transactions.AddDefault | src/main/java/io/nozemi/runescape/model/item/ItemContainer.java:144-154 | `add(item, force)` is `add(item, force, 0)` |
| Transactions.RemoveId | src/main/java/io/nozemi/runescape/model/item/ItemContainer.java:261-264 | `remove(id, force)` is `remove(new Item(id), force)` |
| Transactions.RemoveIdAt | src/main/java/io/nozemi/runescape/model/item/ItemContainer.java:266-269 | `remove(id, force, start)` requests one unit; an absent id is refused with nothing changed; at most one unit is taken, and positive amounts stay positive |
| Transactions.RemoveItem | src/main/java/io/nozemi/runescape/model/item/ItemContainer.java:271-273 | `remove(item, force)` requests the item's amount |
| AddLaws.AddPrecheck | src/main/java/io/nozemi/runescape/model/item/ItemContainer.java:202-208 | non-forced: a stack that would pass MAX, or units above capacity less `count`, are refused with no change; for a present stack, completed is 0 exactly when it would pass MAX |
| AddLaws.AddToExistingStack | src/main/java/io/nozemi/runescape/model/item/ItemContainer.java:233-240 | the first stack becomes `min(MAX, old + amount)` and is the only slot changed and reported; completed is the growth |
| AddLaws.AddNewStack | src/main/java/io/nozemi/runescape/model/item/ItemContainer.java:224-232 | with no stack and no free slot nothing changes; otherwise the whole amount goes to the start slot if empty, else to the first free slot, which is reported |
| AddLaws.AddPlaceholder | src/main/java/io/nozemi/runescape/model/item/ItemContainer.java:210-218 | in a bank, an item held nowhere whose placeholder is present occupies the placeholder's slot, reported first |
| AddLaws.AddUnitsPlacement | src/main/java/io/nozemi/runescape/model/item/ItemContainer.java:242-257 | units fill `min(amount, freeSlots)` slots, the first free ones in scan order, listed in that order; they were empty and no other slot changes |
| AddLaws.AddConserves | src/main/java/io/nozemi/runescape/model/item/ItemContainer.java:175-259 | the id's total grows by exactly `completed`, whatever the branch, force or start |
| AddLaws.DegenerateVerdicts | src/main/java/io/nozemi/runescape/model/item/ItemContainer.java:611-617 | on an absent item or non-positive amount nothing changes; `success` holds only for amount 0 |
| RemoveLaws.RemoveStackAt | src/main/java/io/nozemi/runescape/model/item/ItemContainer.java:299-311 | the stack branch takes `min(amount, slot amount)` from the start slot whatever id it holds, empties it at 0, changes nothing else, and lowers that item's total by what it took |
| RemoveLaws.RemoveItemFromFirstSlot | src/main/java/io/nozemi/runescape/model/item/ItemContainer.java:271-273 | for a stackable item that is present and not over-asked, `remove(item, force)` touches only the id's first slot, takes `min(amount, stack)` there, and lowers the id's total by that much |
| RemoveLaws.RemoveIdAtPresent | src/main/java/io/nozemi/runescape/model/item/ItemContainer.java:266-330 | for a present id, `remove(id, force, start)` of a non-stackable unit always succeeds and the id occupies one slot fewer; a stackable one succeeds exactly when the start slot is occupied, whatever it holds |
| RemoveLaws.ClearScanned | src/main/java/io/nozemi/runescape/model/item/ItemContainer.java:312-328 | clearing the first `amount` hits of the scan empties only slots that held the id, leaves the rest, and lowers the id's slot count by the number cleared |
| RemoveLaws.RemoveUnits | src/main/java/io/nozemi/runescape/model/item/ItemContainer.java:312-328 | the unit branch clears the first `min(amount, occurrences)` slots holding the id in scan order and nothing else |
| RoundTrips.StackRoundTrip | src/main/java/io/nozemi/runescape/model/item/ItemContainer.java:221-311 | a successful `add(item)` of a stackable item, then `remove(item, false)`, succeeds and restores the slots, when an existing stack carries no properties and no placeholder is consumed |
| RoundTrips.UnitRoundTrip | src/main/java/io/nozemi/runescape/model/item/ItemContainer.java:242-328 | a non-stackable item held nowhere, with room for every unit and no placeholder consumed: `add(item)` places every unit and `remove(item, false)` clears exactly those |
| RoundTrips.StackDropsProperties | src/main/java/io/nozemi/runescape/model/item/ItemContainer.java:233-240 | growing a stack that carries properties rewrites it without them, so `add` then `remove(item, false)` succeeds but does not restore the slots |
| RoundTrips.PlaceholderLost | src/main/java/io/nozemi/runescape/model/item/ItemContainer.java:209-311 | in a bank, a stackable item held nowhere takes its placeholder's slot; `add` then `remove(item, false)` both succeed and leave that slot empty, so the placeholder is not restored |
| RoundTrips.PropertyUnitsStayBehind | src/main/java/io/nozemi/runescape/model/item/ItemContainer.java:189-257 | an item with properties whose definition stacks is added one unit per slot; `count` then reads 1, so `remove(item, false)` of two or more units is refused and changes nothing |
| RoundTrips.UnitAddCanBePartial | src/main/java/io/nozemi/runescape/model/item/ItemContainer.java:202-257 | with fewer free slots than requested but within capacity, a non-forced unit add passes the pre-check, fills every free slot, and reports failure |

## Left out

- `addOrDrop`: spawns a ground item in the game world, outside the container.
- `valueOf`: its price lookup is commented out, so it always returns 0.
- `toString`, `iterator`, `world`, `type`, `size`, `copy` and `items()`: plumbing around the array. Capacity is `|slots|`.
- `items(Item[])` and the constructor `ItemContainer(World, Item[], Type)`: both take an array of any length, which the fixed capacity of the model does not follow.
- `roomFor`: an advisory check that its own comment marks as unfinished.
- `byId`, `has`, `hasAny`, `hasAll`, `hasAllArr` and `hasItems`: these are thin wrappers over `findFirst` and the slot scans, which are modelled.
- `Entity.java`, `LoyaltyRewards.java` and `build.gradle.kts` are not part of this model. They hold game-loop plumbing, network encoding and build configuration.
- `Item` and `ItemDefinition` are not part of this model. The definition lookup is a parameter, and `Item` is a datatype. `new Item(id)` is taken to hold one unit with no properties. `new Item(id, amount)` is taken to carry no properties. `new Item(item, n)` is taken to keep the id and properties of `item`.
- Transactions.Add: a start at or past the capacity is excluded by a precondition. In the source such a start throws only when a new stack meets a free slot (`items[start]`, line 229). The null or non-positive input, the pre-check refusals, a full container and the growth of an existing stack all return normally. The unit branch takes the start modulo the capacity.
- Transactions.Remove: a start at or past the capacity is excluded by a precondition. In the source such a start throws only in the stack branch (`items[start]`, line 300). The null or non-positive input and the `count` refusals return normally. The unit branch takes the start modulo the capacity.
- Transactions.RemoveItem: the item is never absent, because `remove(Item, boolean)` reads the item's id before any null check and throws on null.
- Containers.Replace: a negative slot is excluded, because the source throws on it.
- Containers.Set: an index outside the capacity is excluded, because the source throws on it.
- Scan.ScanStamp: `x + start` is not checked for `int` overflow. With the start inside the capacity this needs a capacity above 2^30 slots.
- Slots.HasAtId: an index outside the capacity is excluded, because `hasAt(slot, id)` reads `items[slot]` unchecked and throws.
- RoundTrips.StackRoundTrip: holds only when an existing stack carries no properties; `add` rewrites that stack as `new Item(id, amt + add)` and drops them (RoundTrips.StackDropsProperties). It also holds only when no placeholder is consumed: in a bank, `add` clears the placeholder's slot and the removal leaves it empty (RoundTrips.PlaceholderLost).
- RoundTrips.UnitRoundTrip: holds only for an id whose definition does not stack; an item with properties of a stacking id goes in unit by unit but `count` reads only the first unit, so the non-forced removal is refused (RoundTrips.PropertyUnitsStayBehind). It also holds only when no placeholder is consumed: in a bank, `add` clears the placeholder's slot and the removal leaves it empty.
- Exceptions are not modelled as values, except `replace`'s `IllegalStateException` for a slot past the end, which becomes a `None` result. Every other throwing input is excluded by a precondition, as listed above.

=== FILE: add_laws.dfy ===
/** What `add` promises: the pre-check, the saturating stack arithmetic,
    where a new stack goes, where units go, the placeholder step, and that
    `completed` is exactly the growth of the id's total. */
module AddLaws {
  import opened Items
  import opened Slots
  import opened Counting
  import opened Scan
  import opened Transactions

  /** A scan of a range whose first slot matches meets that slot first. */
  lemma WhereStartsAt(slots: seq<Slot>, p: Probe, lo: nat, hi: nat)
    requires lo < hi <= |slots| && Matches(p, slots[lo])
    ensures Where(slots, p, lo, hi) != [] && Where(slots, p, lo, hi)[0] == lo
  {
    WhereSplit(slots, p, lo, lo + 1, hi);
    assert Where(slots, p, lo, lo + 1) == [lo];
  }

  /** A circular scan from a matching slot meets that slot first. */
  lemma ScanHitsStartAt(slots: seq<Slot>, p: Probe, s: nat)
    requires s < |slots| && Matches(p, slots[s])
    ensures ScanHits(slots, p, s) != [] && ScanHits(slots, p, s)[0] == s
  {
    ScanHitsFacts(slots, p, s);
    WhereStartsAt(slots, p, s, |slots|);
  }

  /** A valid container with no stack of the id holds 0 of it. */
  lemma HeldWhenAbsent(c: Container, defs: Catalog, it: Item)
    requires Valid(c.slots) && FindFirst(c.slots, it.id).None?
    ensures Held(c, defs, it) == 0 && Count(c.slots, defs, it.id) == 0
  {
    CountOfValid(c.slots, defs, it.id);
  }

  /** In a valid container of Java size, the non-forced pre-check refuses,
      with no change, a stack that would pass MAX, and units that would
      exceed the capacity less `count(id)`. For a stack already present
      nothing is done exactly when it would pass MAX. */
  lemma AddPrecheck(c: Container, defs: Catalog, it: Item, start: int)
    requires StartOk(c.slots, start) && it.amount >= 1 && Valid(c.slots) && |c.slots| <= MAX
    ensures var f := FindFirst(c.slots, it.id);
            var o := Add(c, defs, Some(it), false, start);
            IsStackable(it, c.policy, defs(it.id)) && f.Some? ==>
              (o.result.completed == 0 <==> it.amount > MAX - f.value.item.amount) &&
              (o.result.completed == 0 ==> o.container == c)
    ensures var o := Add(c, defs, Some(it), false, start);
            !IsStackable(it, c.policy, defs(it.id)) && it.amount > |c.slots| - Count(c.slots, defs, it.id) ==>
              o == Outcome(c, Result(it.amount, 0, []))
  {
    var f := FindFirst(c.slots, it.id);
    CountOfValid(c.slots, defs, it.id);
    if IsStackable(it, c.policy, defs(it.id)) && f.Some? {
      HeldIsFirstStack(c, defs, it);
      var amt := f.value.item.amount;
      assert ToInt32(MAX - amt) == MAX - amt;
      assert !PlaceholderFires(c, defs(it.id), amt);
    }
  }

  /** A stackable add onto an existing stack rewrites only the first stack,
      to `min(MAX, old + amount)`, reports that slot, and completes the growth. */
  lemma AddToExistingStack(c: Container, defs: Catalog, it: Item, force: bool, start: int)
    requires StartOk(c.slots, start) && it.amount >= 1 && Valid(c.slots)
    requires IsStackable(it, c.policy, defs(it.id)) && FindFirst(c.slots, it.id).Some?
    requires force || it.amount <= MAX - FindFirst(c.slots, it.id).value.item.amount
    ensures var f := FindFirst(c.slots, it.id).value;
            var total := Min(MAX, f.item.amount + it.amount);
            var o := Add(c, defs, Some(it), force, start);
            && o.container.slots == c.slots[f.slot := Some(Item(it.id, total, false))]
            && o.result == Result(it.amount, total - f.item.amount, [f.slot])
            && o.container.dirty
  {
    var f := FindFirst(c.slots, it.id).value;
    HeldIsFirstStack(c, defs, it);
    assert !PlaceholderFires(c, defs(it.id), f.item.amount);
    assert ToInt32(MAX - f.item.amount) == MAX - f.item.amount;
  }

  /** A stackable add with no stack present, outside the placeholder case:
      with no free slot nothing changes; otherwise the whole amount goes to
      the start slot if it is empty, else to the first free slot. */
  lemma AddNewStack(c: Container, defs: Catalog, it: Item, force: bool, start: int)
    requires StartOk(c.slots, start) && it.amount >= 1 && Valid(c.slots)
    requires IsStackable(it, c.policy, defs(it.id)) && FindFirst(c.slots, it.id).None?
    requires !PlaceholderFires(c, defs(it.id), 0)
    ensures var o := Add(c, defs, Some(it), force, start);
            var free := NextFreeSlot(c.slots);
            && (free == -1 ==> o == Outcome(c, Result(it.amount, 0, [])))
            && (free != -1 ==>
                  var t := if c.slots[Clamp(start)].None? then Clamp(start) else free;
                  && o.container.slots == c.slots[t := Some(Item(it.id, it.amount, false))]
                  && o.result == Result(it.amount, it.amount, [t])
                  && o.container.dirty)
  {
    HeldWhenAbsent(c, defs, it);
  }

  /** A new stack whose start slot is empty goes to the start slot. */
  lemma NewStackAtFreeStart(c: Container, it: Item, amt: Int32, s: nat)
    requires s < |c.slots| && c.slots[s].None? && it.amount >= 1
    requires FindFirst(c.slots, it.id).None?
    ensures var o := AddStack(c, it, amt, s);
            o.result.affected == [s] && o.container.slots[s] == Some(Item(it.id, it.amount, false))
            && o.container.dirty
  {
    assert NextFreeSlot(c.slots) != -1;
  }

  /** Units whose scan starts at an empty slot fill that slot first. */
  lemma UnitsAtFreeStart(c: Container, it: Item, s: nat)
    requires s < |c.slots| && c.slots[s].None? && it.amount >= 1
    ensures var o := AddUnits(c, it, s);
            o.result.affected != [] && o.result.affected[0] == s
            && o.container.slots[s] == Some(Item(it.id, 1, it.hasProperties))
  {
    var hits := ScanHits(c.slots, Free, s);
    ScanHitsStartAt(c.slots, Free, s);
    ScanHitsFacts(c.slots, Free, s);
    var placed := hits[..Min(it.amount, |hits|)];
    assert placed[0] == s;
    StampFacts(c.slots, placed, Some(Item(it.id, 1, it.hasProperties)));
  }

  /** Clearing a slot cannot make an absent id present. */
  lemma ClearedStaysAbsent(c: Container, d: Container, p: nat, id: int)
    requires FindFirst(c.slots, id).None? && |d.slots| == |c.slots| && p < |c.slots| && d.slots[p].None?
    requires forall j :: 0 <= j < |c.slots| && j != p ==> d.slots[j] == c.slots[j]
    ensures FindFirst(d.slots, id).None?
  {
    forall j | 0 <= j < |d.slots|
      ensures !Matches(Holds(id), d.slots[j])
    {
      if j != p {
        assert d.slots[j] == c.slots[j];
      }
    }
  }

  /** In a bank, an item held nowhere whose placeholder is present takes
      the placeholder's slot: the slot is cleared and placement begins there. */
  lemma AddPlaceholder(c: Container, defs: Catalog, it: Item, force: bool, start: int)
    requires StartOk(c.slots, start) && it.amount >= 1 && Valid(c.slots)
    requires FindFirst(c.slots, it.id).None? && PlaceholderFires(c, defs(it.id), 0)
    requires force || IsStackable(it, c.policy, defs(it.id)) || it.amount <= |c.slots|
    ensures var p := FindFirst(c.slots, defs(it.id).placeheld).value.slot;
            var o := Add(c, defs, Some(it), force, start);
            && o.result.affected != [] && o.result.affected[0] == p
            && o.container.slots[p] == Some(if IsStackable(it, c.policy, defs(it.id))
                                            then Item(it.id, it.amount, false)
                                            else Item(it.id, 1, it.hasProperties))
  {
    HeldWhenAbsent(c, defs, it);
    var def := defs(it.id);
    var p := FindFirst(c.slots, def.placeheld).value.slot;
    var u := Unplace(c, def, 0, Clamp(start));
    assert u.1 == p && u.0.slots[p].None?;
    if IsStackable(it, c.policy, def) {
      ClearedStaysAbsent(c, u.0, p, it.id);
      NewStackAtFreeStart(u.0, it, 0, p);
    } else {
      assert ToInt32(|c.slots| - 0) == |c.slots|;
      UnitsAtFreeStart(u.0, it, p);
    }
  }

  /** A unit add outside the placeholder case that passes the pre-check
      fills `min(amount, freeSlots)` slots with one unit each. These are the
      first free slots met by the circular scan, listed in that order. They
      were all empty, and no other slot changes. */
  lemma AddUnitsPlacement(c: Container, defs: Catalog, it: Item, force: bool, start: int)
    requires StartOk(c.slots, start) && it.amount >= 1
    requires !IsStackable(it, c.policy, defs(it.id))
    requires !Refused(|c.slots|, it, false, Count(c.slots, defs, it.id), force)
    requires !PlaceholderFires(c, defs(it.id), Count(c.slots, defs, it.id))
    ensures var o := Add(c, defs, Some(it), force, start);
            var hits := ScanHits(c.slots, Free, Clamp(start));
            && o.result.affected == hits[..Min(it.amount, |hits|)]
            && o.result.completed == Min(it.amount, FreeSlots(c.slots))
            && (forall k :: 0 <= k < |o.result.affected| ==> c.slots[o.result.affected[k]].None?)
            && (forall j :: 0 <= j < |c.slots| ==>
                  o.container.slots[j] == if j in o.result.affected then Some(Item(it.id, 1, it.hasProperties))
                                          else c.slots[j])
  {
    var s := Clamp(start);
    var hits := ScanHits(c.slots, Free, s);
    ScanHitsFacts(c.slots, Free, s);
    var placed := hits[..Min(it.amount, |hits|)];
    StampFacts(c.slots, placed, Some(Item(it.id, 1, it.hasProperties)));
  }

  /** The placeholder step never touches a slot holding the added id, in
      a valid container. */
  lemma UnplaceKeepsTotal(c: Container, defs: Catalog, it: Item, s: nat)
    requires StartOk(c.slots, s) && Valid(c.slots)
    ensures var u := Unplace(c, defs(it.id), Held(c, defs, it), s);
            Total(u.0.slots, Holds(it.id)) == Total(c.slots, Holds(it.id))
  {
    var def := defs(it.id);
    var amt := Held(c, defs, it);
    if PlaceholderFires(c, def, amt) {
      CountOfValid(c.slots, defs, it.id);
      if FindFirst(c.slots, it.id).Some? && IsStackable(it, c.policy, def) {
        HeldIsFirstStack(c, defs, it);
      }
      assert FindFirst(c.slots, it.id).None?;
      var p := FindFirst(c.slots, def.placeheld).value.slot;
      TotalUpdate(c.slots, p, None, Holds(it.id));
      assert Unplace(c, def, amt, s).0.slots == c.slots[p := None];
    }
  }

  /** The stack branch adds `completed` to the id's total. */
  lemma AddStackTotal(c: Container, it: Item, amt: Int32, s: nat)
    requires StartOk(c.slots, s) && it.amount >= 1
    requires FindFirst(c.slots, it.id).Some? ==> amt == FindFirst(c.slots, it.id).value.item.amount
    ensures var o := AddStack(c, it, amt, s);
            Total(o.container.slots, Holds(it.id)) == Total(c.slots, Holds(it.id)) + o.result.completed
  {
    var index := FindFirst(c.slots, it.id);
    if index.None? {
      var free := NextFreeSlot(c.slots);
      if free != -1 {
        var t := if c.slots[s].None? then s else free;
        TotalUpdate(c.slots, t, Some(Item(it.id, it.amount, false)), Holds(it.id));
      }
    } else {
      var i := index.value.slot;
      var add := if amt + it.amount > MAX then ToInt32(MAX - amt) else it.amount;
      TotalUpdate(c.slots, i, Some(Item(it.id, ToInt32(amt + add), false)), Holds(it.id));
    }
  }

  /** The unit branch adds one unit per slot filled to the id's total. */
  lemma AddUnitsTotal(c: Container, it: Item, s: nat)
    requires StartOk(c.slots, s) && it.amount >= 1
    ensures var o := AddUnits(c, it, s);
            Total(o.container.slots, Holds(it.id)) == Total(c.slots, Holds(it.id)) + o.result.completed
  {
    var hits := ScanHits(c.slots, Free, s);
    ScanHitsFacts(c.slots, Free, s);
    var placed := hits[..Min(it.amount, |hits|)];
    StampTotal(c.slots, placed, Some(Item(it.id, 1, it.hasProperties)), Holds(it.id));
  }

  /** In a valid container `add` conserves units: the id's total grows by
      exactly `completed`, whatever the branch, force or start. */
  lemma AddConserves(c: Container, defs: Catalog, it: Item, force: bool, start: int)
    requires StartOk(c.slots, start) && Valid(c.slots)
    ensures var o := Add(c, defs, Some(it), force, start);
            Total(o.container.slots, Holds(it.id)) == Total(c.slots, Holds(it.id)) + o.result.completed
  {
    if it.amount >= 1 {
      var def := defs(it.id);
      var amt := Held(c, defs, it);
      var s := Clamp(start);
      if !Refused(|c.slots|, it, IsStackable(it, c.policy, def), amt, force) {
        var u := Unplace(c, def, amt, s);
        UnplaceKeepsTotal(c, defs, it, s);
        if IsStackable(it, c.policy, def) {
          AddStackKeepsValid(c, defs, it, s);
          AddStackTotal(u.0, it, amt, u.1);
        } else {
          AddUnitsTotal(u.0, it, u.1);
        }
      }
    }
  }

  /** The verdicts of `add` and `remove` on an absent item or a
      non-positive amount. `success` compares completed with requested, so
      an absent item (requested -1) and a negative amount fail, but an
      amount of 0 succeeds, and in every case nothing changes. */
  lemma DegenerateVerdicts(c: Container, defs: Catalog, item: Option<Item>, force: bool, start: int)
    requires StartOk(c.slots, start)
    requires item.None? || item.value.amount <= 0
    ensures Add(c, defs, item, force, start).result.Success() <==> item.Some? && item.value.amount == 0
    ensures Remove(c, defs, item, force, start).result.Success() <==> item.Some? && item.value.amount == 0
    ensures Add(c, defs, item, force, start).container == c && Remove(c, defs, item, force, start).container == c
  {
  }
}

=== FILE: compaction.dfy ===
/** Order-preserving compaction: `pack` moves the occupied slots to the
    front, and `insert` does the same while slipping one entry in. */
module Compaction {
  import opened Items
  import opened Slots

  /** The occupied entries of `slots`, in their original order. */
  function Compact(slots: seq<Slot>): (r: seq<Slot>)
    ensures |r| <= |slots|
  {
    if |slots| == 0 then []
    else Compact(slots[..|slots| - 1]) + (if slots[|slots| - 1].Some? then [slots[|slots| - 1]] else [])
  }

  /** `k` empty slots. */
  function Empties(k: nat): (r: seq<Slot>)
    ensures |r| == k
  {
    seq(k, _ => None)
  }

  /** `r` extended with empty slots to length `n`. */
  function Pad(r: seq<Slot>, n: nat): (p: seq<Slot>)
    requires |r| <= n
    ensures |p| == n
  {
    r + Empties(n - |r|)
  }

  /** `Compact` keeps exactly the occupied slots, in slot order: its k-th
      entry is the slot of the k-th occupied index. */
  lemma {:induction false} CompactFacts(slots: seq<Slot>)
    ensures |Compact(slots)| == |Where(slots, Taken, 0, |slots|)|
    ensures forall k :: 0 <= k < |Compact(slots)| ==>
              Where(slots, Taken, 0, |slots|)[k] < |slots| &&
              Compact(slots)[k] == slots[Where(slots, Taken, 0, |slots|)[k]]
    ensures forall k :: 0 <= k < |Compact(slots)| ==> Compact(slots)[k].Some?
    decreases |slots|
  {
    if |slots| > 0 {
      var n := |slots|;
      var init := slots[..n - 1];
      CompactFacts(init);
      WhereLocal(init, slots, Taken, 0, n - 1);
      WhereFacts(slots, Taken, 0, n);
    }
  }

  /** Compaction distributes over concatenation. */
  lemma {:induction false} CompactAppend(a: seq<Slot>, b: seq<Slot>)
    ensures Compact(a + b) == Compact(a) + Compact(b)
    decreases |b|
  {
    if |b| == 0 {
      assert a + b == a;
    } else {
      assert (a + b)[..|a + b| - 1] == a + b[..|b| - 1];
      assert (a + b)[|a + b| - 1] == b[|b| - 1];
      CompactAppend(a, b[..|b| - 1]);
    }
  }

  /** Empty slots compact to nothing. */
  lemma {:induction false} CompactEmpties(k: nat)
    ensures Compact(Empties(k)) == []
    decreases k
  {
    if k > 0 {
      assert Empties(k)[..k - 1] == Empties(k - 1);
      CompactEmpties(k - 1);
    }
  }

  /** A sequence with no empty slot compacts to itself. */
  lemma {:induction false} CompactOfFull(slots: seq<Slot>)
    requires forall k :: 0 <= k < |slots| ==> slots[k].Some?
    ensures Compact(slots) == slots
    decreases |slots|
  {
    if |slots| > 0 {
      CompactOfFull(slots[..|slots| - 1]);
    }
  }

  /** Padding adds only empty slots, which compaction drops. */
  lemma {:induction false} CompactPad(r: seq<Slot>, n: nat)
    requires |r| <= n
    ensures Compact(Pad(r, n)) == Compact(r)
  {
    CompactAppend(r, Empties(n - |r|));
    CompactEmpties(n - |r|);
  }

  /** A compacted prefix is no longer than the compacted whole, which has
      as many entries as the container has occupied slots. */
  lemma CompactSizes(slots: seq<Slot>, i: nat)
    requires i <= |slots|
    ensures |Compact(slots[..i])| + |Compact(slots[i..])| == |Compact(slots)|
    ensures |Compact(slots)| == OccupiedSlots(slots)
  {
    assert slots[..i] + slots[i..] == slots;
    CompactAppend(slots[..i], slots[i..]);
    CompactFacts(slots);
  }

  /** `pack`'s new array: the occupied entries first, in order, then empty slots. */
  function PackSlots(slots: seq<Slot>): seq<Slot> {
    Pad(Compact(slots), |slots|)
  }

  /** Packing keeps the size and the occupied entries in their order,
      leaves no gap before an occupied slot, and is idempotent. */
  lemma PackFacts(slots: seq<Slot>)
    ensures |PackSlots(slots)| == |slots|
    ensures Compact(PackSlots(slots)) == Compact(slots)
    ensures OccupiedSlots(PackSlots(slots)) == OccupiedSlots(slots)
    ensures FreeSlots(PackSlots(slots)) == FreeSlots(slots)
    ensures forall i, j :: 0 <= i < j < |slots| && PackSlots(slots)[i].None? ==> PackSlots(slots)[j].None?
    ensures PackSlots(PackSlots(slots)) == PackSlots(slots)
  {
    var c := Compact(slots);
    var out := PackSlots(slots);
    CompactPad(c, |slots|);
    CompactFacts(slots);
    CompactOfFull(c);
    CompactSizes(slots, 0);
    CompactSizes(out, 0);
    forall i, j | 0 <= i < j < |slots| && out[i].None?
      ensures out[j].None?
    {
      assert i >= |c|;
    }
  }

  /** Appending one entry to the padded front is a single write at its end. */
  lemma PadPush(r: seq<Slot>, x: Slot, n: nat)
    requires |r| < n
    ensures Pad(r, n)[|r| := x] == Pad(r + [x], n)
  {
  }

  /** The source's `pack` loop: copy each occupied slot to the next
      position of a fresh array. */
  method PackLoop(slots: seq<Slot>) returns (temp: seq<Slot>)
    ensures temp == PackSlots(slots)
  {
    var n := |slots|;
    temp := Empties(n);
    var t := 0;
    for i := 0 to n
      invariant t == |Compact(slots[..i])| && t <= i
      invariant temp == Pad(Compact(slots[..i]), n)
    {
      assert slots[..i + 1][..i] == slots[..i];
      if slots[i].Some? {
        PadPush(Compact(slots[..i]), slots[i], n);
        temp := temp[t := slots[i]];
        t := t + 1;
      }
    }
    assert slots[..n] == slots;
  }

  /** `insert`'s new array. With `at` in range, the occupied entries before
      `at`, then `item`, then the occupied entries from `at` on; with a
      negative `at` the item is never placed and the slots are only packed.
      The caller guarantees a free slot, so everything fits. */
  function InsertSlots(slots: seq<Slot>, item: Slot, at: int): (r: seq<Slot>)
    requires FreeSlots(slots) > 0 && at < |slots|
    ensures |r| == |slots|
  {
    if at < 0 then PackSlots(slots)
    else
      CompactSizes(slots, at);
      Pad(Compact(slots[..at]) + [item] + Compact(slots[at..]), |slots|)
  }

  /** What the `insert` loop has written after visiting the first `i`
      slots: at index `at` it writes `item`, then each occupied slot. */
  function InsertScan(slots: seq<Slot>, item: Slot, at: int, i: nat): seq<Slot>
    requires i <= |slots|
  {
    if i == 0 then []
    else
      InsertScan(slots, item, at, i - 1)
      + (if i - 1 == at then [item] else [])
      + (if slots[i - 1].Some? then [slots[i - 1]] else [])
  }

  /** Compacting one more slot of a window appends it when occupied. */
  lemma CompactSnoc(slots: seq<Slot>, lo: nat, i: nat)
    requires lo <= i < |slots|
    ensures Compact(slots[lo..i + 1]) ==
            Compact(slots[lo..i]) + (if slots[i].Some? then [slots[i]] else [])
  {
    assert slots[lo..i + 1][..i - lo] == slots[lo..i];
  }

  /** The loop's output so far, in closed form. */
  function InsertedBy(slots: seq<Slot>, item: Slot, at: int, i: nat): seq<Slot>
    requires i <= |slots|
  {
    if 0 <= at < i then Compact(slots[..at]) + [item] + Compact(slots[at..i])
    else Compact(slots[..i])
  }

  /** The loop's output so far: the occupied slots visited, with `item`
      slipped in after those before `at` once `at` has been passed. */
  lemma {:induction false} InsertScanIs(slots: seq<Slot>, item: Slot, at: int, i: nat)
    requires i <= |slots|
    ensures InsertScan(slots, item, at, i) == InsertedBy(slots, item, at, i)
    decreases i
  {
    if i > 0 {
      InsertScanIs(slots, item, at, i - 1);
      if 0 <= at < i - 1 {
        InsertStepAfter(slots, item, at, i);
      } else if at == i - 1 {
        InsertStepAt(slots, item, at, i);
      } else {
        InsertStepBefore(slots, item, at, i);
      }
    }
  }

  lemma InsertStepBefore(slots: seq<Slot>, item: Slot, at: int, i: nat)
    requires 0 < i <= |slots| && !(0 <= at < i)
    requires InsertScan(slots, item, at, i - 1) == InsertedBy(slots, item, at, i - 1)
    ensures InsertScan(slots, item, at, i) == InsertedBy(slots, item, at, i)
  {
    CompactSnoc(slots, 0, i - 1);
    assert slots[0..i] == slots[..i] && slots[0..i - 1] == slots[..i - 1];
  }

  lemma InsertStepAt(slots: seq<Slot>, item: Slot, at: int, i: nat)
    requires 0 < i <= |slots| && at == i - 1
    requires InsertScan(slots, item, at, i - 1) == InsertedBy(slots, item, at, i - 1)
    ensures InsertScan(slots, item, at, i) == InsertedBy(slots, item, at, i)
  {
    var last := if slots[at].Some? then [slots[at]] else [];
    assert InsertScan(slots, item, at, i) == InsertScan(slots, item, at, at) + [item] + last;
    assert InsertedBy(slots, item, at, at) == Compact(slots[..at]);
    CompactSnoc(slots, at, at);
    assert slots[at..at] == [] && Compact(slots[at..at]) == [];
    assert Compact(slots[at..i]) == last;
  }

  lemma InsertStepAfter(slots: seq<Slot>, item: Slot, at: int, i: nat)
    requires 0 < i <= |slots| && 0 <= at < i - 1
    requires InsertScan(slots, item, at, i - 1) == InsertedBy(slots, item, at, i - 1)
    ensures InsertScan(slots, item, at, i) == InsertedBy(slots, item, at, i)
  {
    var last := if slots[i - 1].Some? then [slots[i - 1]] else [];
    var a := Compact(slots[..at]);
    var b := Compact(slots[at..i - 1]);
    assert InsertScan(slots, item, at, i) == (a + [item] + b) + last by {
      assert InsertScan(slots, item, at, i) == InsertScan(slots, item, at, i - 1) + [] + last;
    }
    assert Compact(slots[at..i]) == b + last by {
      CompactSnoc(slots, at, i - 1);
    }
    assert InsertedBy(slots, item, at, i) == a + [item] + Compact(slots[at..i]);
    assert (a + [item] + b) + last == a + [item] + (b + last);
  }

  /** The loop never writes past the end: the caller's free slot leaves
      room for the item. */
  lemma InsertScanFits(slots: seq<Slot>, item: Slot, at: int, i: nat)
    requires FreeSlots(slots) > 0 && i <= |slots|
    ensures |InsertScan(slots, item, at, i)| <= |slots|
  {
    InsertScanIs(slots, item, at, i);
    CompactSizes(slots, i);
    if 0 <= at < i {
      assert slots[..i] == slots[..at] + slots[at..i];
      CompactAppend(slots[..at], slots[at..i]);
    }
  }

  /** One pass of the `insert` loop body: writing `item` when `at` is
      reached, then the slot itself when occupied, extends the padded
      output by exactly the next entries of the scan. */
  lemma InsertLoopStep(slots: seq<Slot>, item: Slot, at: int, i: nat)
    requires FreeSlots(slots) > 0 && i < |slots|
    ensures |InsertScan(slots, item, at, i + 1)| <= |slots|
    ensures var n := |slots|;
            var built := InsertScan(slots, item, at, i);
            var t0 := |built|;
            var mid := if i == at then Pad(built, n)[t0 := item] else Pad(built, n);
            var t1 := if i == at then t0 + 1 else t0;
            && t1 <= |InsertScan(slots, item, at, i + 1)|
            && Pad(InsertScan(slots, item, at, i + 1), n) ==
               (if slots[i].Some? then mid[t1 := slots[i]] else mid)
            && |InsertScan(slots, item, at, i + 1)| == t1 + (if slots[i].Some? then 1 else 0)
  {
    var n := |slots|;
    var built := InsertScan(slots, item, at, i);
    var first := built + (if i == at then [item] else []);
    assert InsertScan(slots, item, at, i + 1) == first + (if slots[i].Some? then [slots[i]] else []);
    InsertScanFits(slots, item, at, i + 1);
    if i == at {
      PadPush(built, item, n);
    }
    if slots[i].Some? {
      PadPush(first, slots[i], n);
    }
  }

  /** The source's `insert` loop: copy the occupied slots forward, writing
      `item` first when the index `at` is reached. */
  method InsertLoop(slots: seq<Slot>, item: Slot, at: int) returns (temp: seq<Slot>)
    requires FreeSlots(slots) > 0 && at < |slots|
    ensures temp == InsertSlots(slots, item, at)
  {
    var n := |slots|;
    temp := Empties(n);
    var t := 0;
    for i := 0 to n
      invariant t == |InsertScan(slots, item, at, i)| && t <= n
      invariant temp == Pad(InsertScan(slots, item, at, i), n)
    {
      InsertLoopStep(slots, item, at, i);
      if i == at {
        temp := temp[t := item];
        t := t + 1;
      }
      if slots[i].Some? {
        temp := temp[t := slots[i]];
        t := t + 1;
      }
    }
    InsertScanIs(slots, item, at, n);
    assert slots[..n] == slots;
    if at >= 0 {
      assert slots[at..n] == slots[at..];
    }
  }

  /** With `at` in range, `insert` puts `item` just after the occupied
      entries that preceded `at`, so never later than `at`. */
  lemma InsertPlacesItem(slots: seq<Slot>, item: Slot, at: int)
    requires FreeSlots(slots) > 0 && 0 <= at < |slots|
    ensures var pos := |Compact(slots[..at])|;
            && pos <= at
            && InsertSlots(slots, item, at)[pos] == item
            && InsertSlots(slots, item, at)[..pos] == Compact(slots[..at])
  {
    var a := Compact(slots[..at]);
    var b := Compact(slots[at..]);
    CompactSizes(slots, at);
    assert (a + [item] + b)[|a|] == item;
    assert (a + [item] + b)[..|a|] == a;
  }

  /** With `at` in range, `insert` keeps every occupied entry in its order
      around the new one, and adds one occupied slot when the item is present. */
  lemma InsertKeepsOrder(slots: seq<Slot>, item: Slot, at: int)
    requires FreeSlots(slots) > 0 && 0 <= at < |slots|
    ensures Compact(InsertSlots(slots, item, at)) ==
            Compact(slots[..at]) + Compact([item]) + Compact(slots[at..])
    ensures OccupiedSlots(InsertSlots(slots, item, at)) ==
            OccupiedSlots(slots) + (if item.Some? then 1 else 0)
  {
    var a := Compact(slots[..at]);
    var b := Compact(slots[at..]);
    var out := InsertSlots(slots, item, at);
    CompactSizes(slots, at);
    CompactPad(a + [item] + b, |slots|);
    CompactAppend(a + [item], b);
    CompactAppend(a, [item]);
    CompactFacts(slots[..at]);
    CompactFacts(slots[at..]);
    CompactOfFull(a);
    CompactOfFull(b);
    assert Compact([item]) == if item.Some? then [item] else [] by {
      assert [item][..0] == [];
    }
    CompactSizes(out, 0);
  }
}

=== FILE: containers.dfy ===
/** The container's direct operations: unchecked writes, swapping,
    emptying, snapshot restore, packing, insertion and the dirty flag. */
module Containers {
  import opened Items
  import opened Slots
  import opened Compaction

  /** How `set` stores an item: one with an amount below 1 becomes an empty slot. */
  function Normalize(item: Slot): (r: Slot)
    ensures r.Some? ==> r == item && r.value.amount >= 1
    ensures item.Some? && item.value.amount >= 1 ==> r == item
  {
    if item.Some? && item.value.amount < 1 then None else item
  }

  /** `set`: the unchecked write of one slot. It marks the container dirty
      and keeps every stored amount positive. */
  function Set(c: Container, slot: int, item: Slot): (r: Container)
    requires 0 <= slot < |c.slots|
    ensures |r.slots| == |c.slots| && r.policy == c.policy && r.dirty
    ensures Valid(c.slots) ==> Valid(r.slots)
  {
    c.(slots := c.slots[slot := Normalize(item)], dirty := true)
  }

  /** Reading back a slot after `set` gives the stored item; every other
      slot reads as before. */
  lemma SetThenGet(c: Container, slot: int, item: Slot, other: int)
    requires 0 <= slot < |c.slots|
    ensures Get(Set(c, slot, item).slots, slot) == Normalize(item)
    ensures other != slot ==> Get(Set(c, slot, item).slots, other) == Get(c.slots, other)
  {
  }

  /** `replace`: writes one unit of `itemId` into the slot, or empties it
      when `itemId` is -1. A slot past the end is refused (the source throws). */
  function Replace(c: Container, slot: int, itemId: Int32): (r: Option<Container>)
    requires slot >= 0
    ensures r.None? <==> slot >= |c.slots|
    ensures r.Some? ==> |r.value.slots| == |c.slots| && r.value.policy == c.policy && r.value.dirty
    ensures r.Some? ==> GetId(r.value.slots, slot) == itemId
    ensures r.Some? ==> forall j :: 0 <= j < |c.slots| && j != slot ==> r.value.slots[j] == c.slots[j]
    ensures r.Some? && Valid(c.slots) ==> Valid(r.value.slots)
  {
    if slot >= |c.slots| then None
    else Some(c.(slots := c.slots[slot := if itemId == -1 then None else Some(OneOf(itemId))], dirty := true))
  }

  /** `empty`: every slot cleared. */
  function Empty(c: Container): (r: Container)
    ensures |r.slots| == |c.slots| && r.policy == c.policy && r.dirty
    ensures IsEmpty(r.slots) && FreeSlots(r.slots) == |c.slots| && OccupiedSlots(r.slots) == 0
  {
    c.(slots := Empties(|c.slots|), dirty := true)
  }

  /** `swap`: exchanges two slots when both indices are in range; otherwise
      refuses and changes nothing. */
  function Swap(c: Container, a: int, b: int): (r: (Container, bool))
    ensures r.1 <==> 0 <= a < |c.slots| && 0 <= b < |c.slots|
    ensures !r.1 ==> r.0 == c
    ensures r.1 ==> |r.0.slots| == |c.slots| && r.0.slots[a] == c.slots[b] && r.0.slots[b] == c.slots[a]
    ensures r.1 ==> forall j :: 0 <= j < |c.slots| && j != a && j != b ==> r.0.slots[j] == c.slots[j]
    ensures r.1 ==> multiset(r.0.slots) == multiset(c.slots) && r.0.dirty
  {
    if a < 0 || a >= |c.slots| || b < 0 || b >= |c.slots| then (c, false)
    else (c.(slots := c.slots[a := c.slots[b]][b := c.slots[a]], dirty := true), true)
  }

  /** Swapping the same two slots twice restores the slots. */
  lemma SwapTwice(c: Container, a: int, b: int)
    ensures Swap(Swap(c, a, b).0, a, b).0.slots == c.slots
  {
  }

  /** `restore`: copies a snapshot over the slots, emptying the slots past
      its end and ignoring snapshot entries past the capacity. It does not
      validate the snapshot and does not mark the container dirty. */
  function Restore(c: Container, snapshot: seq<Slot>): (r: Container)
    ensures |r.slots| == |c.slots| && r.policy == c.policy && r.dirty == c.dirty
    ensures forall i :: 0 <= i < |c.slots| ==>
              r.slots[i] == if i < |snapshot| then snapshot[i] else None
  {
    c.(slots := seq(|c.slots|, i requires 0 <= i < |c.slots| => if i < |snapshot| then snapshot[i] else None))
  }

  /** Restoring a snapshot taken from a container of the same capacity
      rolls the slots back to it exactly, whatever happened in between;
      a valid snapshot gives a valid container. */
  lemma RestoreRollsBack(c: Container, later: Container)
    requires |later.slots| == |c.slots|
    ensures Restore(later, c.slots).slots == c.slots
    ensures Restore(later, c.slots).dirty == later.dirty
    ensures Valid(c.slots) ==> Valid(Restore(later, c.slots).slots)
  {
  }

  /** `pack`: occupied slots to the front in their order, the rest emptied. */
  function Pack(c: Container): (r: Container)
    ensures |r.slots| == |c.slots| && r.policy == c.policy && r.dirty
    ensures Compact(r.slots) == Compact(c.slots)
    ensures forall i, j :: 0 <= i < j < |r.slots| && r.slots[i].None? ==> r.slots[j].None?
    ensures FreeSlots(r.slots) == FreeSlots(c.slots)
  {
    PackFacts(c.slots);
    c.(slots := PackSlots(c.slots), dirty := true)
  }

  /** Packing twice packs once, and a valid container stays valid. */
  lemma PackIdempotent(c: Container)
    ensures Pack(Pack(c)) == Pack(c)
    ensures Valid(c.slots) ==> Valid(Pack(c).slots)
  {
    PackFacts(c.slots);
    if Valid(c.slots) {
      var w := Where(c.slots, Taken, 0, |c.slots|);
      CompactFacts(c.slots);
      forall i | 0 <= i < |c.slots| && Pack(c).slots[i].Some?
        ensures Pack(c).slots[i].value.amount >= 1
      {
        assert i < |Compact(c.slots)|;
        assert Pack(c).slots[i] == c.slots[w[i]];
      }
    }
  }

  /** `insert`: refused, with no change, when the container is full or
      `at` is past the end. Otherwise the slots are compacted around the
      item placed at `at`; a negative `at` never matches a slot, so the
      item is dropped and the slots are only packed, yet it reports success. */
  function Insert(c: Container, item: Slot, at: int): (r: (Container, bool))
    ensures r.1 <==> !Full(c.slots) && at < |c.slots|
    ensures !r.1 ==> r.0 == c
    ensures r.1 ==> |r.0.slots| == |c.slots| && r.0.policy == c.policy && r.0.dirty
    ensures r.1 && at < 0 ==> r.0.slots == PackSlots(c.slots)
    ensures r.1 && at >= 0 ==>
              OccupiedSlots(r.0.slots) == OccupiedSlots(c.slots) + (if item.Some? then 1 else 0)
  {
    FullIffNoFreeSlots(c.slots);
    if Full(c.slots) || at >= |c.slots| then (c, false)
    else if at >= 0 then
      InsertKeepsOrder(c.slots, item, at);
      (c.(slots := InsertSlots(c.slots, item, at), dirty := true), true)
    else (c.(slots := InsertSlots(c.slots, item, at), dirty := true), true)
  }

  /** `makeDirty`. */
  function MakeDirty(c: Container): Container {
    c.(dirty := true)
  }

  /** `clean`. */
  function Clean(c: Container): Container {
    c.(dirty := false)
  }

  /** `dirty`. */
  predicate IsDirty(c: Container) {
    c.dirty
  }

  /** The flag's life cycle: `clean` clears it, `makeDirty` sets it, and
      neither touches the slots; a slot write after `clean` shows as dirty. */
  lemma DirtyCycle(c: Container, slot: int, item: Slot)
    ensures !IsDirty(Clean(c)) && IsDirty(MakeDirty(Clean(c)))
    ensures Clean(c).slots == c.slots && MakeDirty(c).slots == c.slots
    ensures 0 <= slot < |c.slots| ==> IsDirty(Set(Clean(c), slot, item))
    ensures IsDirty(NewContainer(|c.slots|, c.policy))
  {
  }
}

=== FILE: counting.dfy ===
/** The stack aggregator's sums: `count(int)`, `count(Integer...)`,
    `countSlot`, and the totals the transactions are measured against. */
module Counting {
  import opened Items
  import opened Slots

  /** What a slot adds to a sum over the slots matching `p`. */
  function Weight(p: Probe, s: Slot): int {
    if s.Some? && Matches(p, s) then s.value.amount else 0
  }

  /** The uncapped sum of the amounts of the slots matching `p`, as the
      `long` accumulators of the counting loops hold it. */
  function Total(slots: seq<Slot>, p: Probe): int {
    if |slots| == 0 then 0 else Weight(p, slots[0]) + Total(slots[1..], p)
  }

  /** Overwriting one slot changes the total by the difference of the two weights. */
  lemma {:induction false} TotalUpdate(slots: seq<Slot>, i: nat, v: Slot, p: Probe)
    requires i < |slots|
    ensures Total(slots[i := v], p) == Total(slots, p) - Weight(p, slots[i]) + Weight(p, v)
    decreases |slots|
  {
    if i == 0 {
      assert slots[i := v][1..] == slots[1..];
    } else {
      assert slots[i := v][1..] == slots[1..][i - 1 := v];
      TotalUpdate(slots[1..], i - 1, v, p);
    }
  }

  /** Two probes that weigh every slot alike give the same total. */
  lemma {:induction false} TotalSameWeights(slots: seq<Slot>, p: Probe, q: Probe)
    requires forall j :: 0 <= j < |slots| ==> Weight(p, slots[j]) == Weight(q, slots[j])
    ensures Total(slots, p) == Total(slots, q)
    decreases |slots|
  {
    if |slots| > 0 {
      assert forall j :: 0 <= j < |slots| - 1 ==> slots[1..][j] == slots[j + 1];
      TotalSameWeights(slots[1..], p, q);
    }
  }

  /** In a valid container the total of an id is at least any one of its
      stacks, and it is zero exactly when no slot holds the id. */
  lemma {:induction false} TotalOfValid(slots: seq<Slot>, id: int, i: nat)
    requires Valid(slots)
    ensures Total(slots, Holds(id)) >= 0
    ensures i < |slots| ==> Total(slots, Holds(id)) >= Weight(Holds(id), slots[i])
    ensures Total(slots, Holds(id)) == 0 <==> forall j :: 0 <= j < |slots| ==> !Matches(Holds(id), slots[j])
    decreases |slots|
  {
    if |slots| > 0 {
      assert forall j :: 0 <= j < |slots| - 1 ==> slots[1..][j] == slots[j + 1];
      assert Valid(slots[1..]);
      TotalOfValid(slots[1..], id, if i == 0 then 0 else i - 1);
      if i > 0 && i < |slots| {
        assert slots[1..][i - 1] == slots[i];
      }
    }
  }

  /** The loop of `count(int)` from slot `i` on: it adds every matching
      amount and, when the id `stacks`, stops after the first match. */
  function CountScan(slots: seq<Slot>, id: int, stacks: bool, i: nat): int
    requires i <= |slots|
    decreases |slots| - i
  {
    if i == |slots| then 0
    else if Matches(Holds(id), slots[i]) then
      slots[i].value.amount + (if stacks then 0 else CountScan(slots, id, stacks, i + 1))
    else CountScan(slots, id, stacks, i + 1)
  }

  /** Without the early stop the loop adds up the whole remaining total. */
  lemma {:induction false} CountScanSums(slots: seq<Slot>, id: int, i: nat)
    requires i <= |slots|
    ensures CountScan(slots, id, false, i) == Total(slots[i..], Holds(id))
    decreases |slots| - i
  {
    if i < |slots| {
      CountScanSums(slots, id, i + 1);
      assert slots[i..][1..] == slots[i + 1..];
    }
  }

  /** With the early stop the loop yields the amount of the first match. */
  lemma {:induction false} CountScanFirst(slots: seq<Slot>, id: int, i: nat)
    requires i <= |slots|
    ensures var f := FirstFrom(slots, Holds(id), i);
            CountScan(slots, id, true, i) == if f == -1 then 0 else slots[f].value.amount
    decreases |slots| - i
  {
    if i < |slots| && !Matches(Holds(id), slots[i]) {
      CountScanFirst(slots, id, i + 1);
    }
  }

  /** `count(int)`: the id's amount, capped at MAX, where a stackable id
      is trusted to have a single stack and only its first is read. */
  function Count(slots: seq<Slot>, defs: Catalog, id: Int32): Int32 {
    ToInt32(Min(MAX, CountScan(slots, id, defs(id).stackable, 0)))
  }

  /** For a stackable id, `count` is the amount of the first stack. */
  lemma CountOfStackable(slots: seq<Slot>, defs: Catalog, id: Int32)
    requires defs(id).stackable
    ensures var f := FindFirst(slots, id);
            Count(slots, defs, id) == if f.None? then 0 else f.value.item.amount
  {
    CountScanFirst(slots, id, 0);
  }

  /** For any other id, `count` is the total over every slot, capped at MAX. */
  lemma CountOfDiscrete(slots: seq<Slot>, defs: Catalog, id: Int32)
    requires !defs(id).stackable
    ensures Count(slots, defs, id) == ToInt32(Min(MAX, Total(slots, Holds(id))))
    ensures Valid(slots) ==> Count(slots, defs, id) == Min(MAX, Total(slots, Holds(id)))
  {
    CountScanSums(slots, id, 0);
    assert slots[0..] == slots;
    if Valid(slots) {
      TotalOfValid(slots, id, 0);
    }
  }

  /** In a valid container `count` lies in [0, MAX] and is zero exactly
      when no slot holds the id. */
  lemma CountOfValid(slots: seq<Slot>, defs: Catalog, id: Int32)
    requires Valid(slots)
    ensures 0 <= Count(slots, defs, id) <= MAX
    ensures Count(slots, defs, id) == 0 <==> FindFirst(slots, id).None?
  {
    if defs(id).stackable {
      CountOfStackable(slots, defs, id);
    } else {
      CountOfDiscrete(slots, defs, id);
      TotalOfValid(slots, id, 0);
    }
  }

  /** `count(Integer...)`: every slot holding any of the ids, summed with no
      early stop, capped at MAX. */
  function CountAny(slots: seq<Slot>, ids: seq<Int32>): Int32 {
    ToInt32(Min(MAX, Total(slots, HoldsAny(set x | x in ids :: x as int))))
  }

  /** The two `count`s agree on a non-stackable id, and on a stackable id
      with one stack; otherwise `count(int)` can only under-report. */
  lemma CountAgainstCountAny(slots: seq<Slot>, defs: Catalog, id: Int32)
    requires Valid(slots)
    ensures Count(slots, defs, id) <= CountAny(slots, [id])
    ensures !defs(id).stackable ==> Count(slots, defs, id) == CountAny(slots, [id])
    ensures |Where(slots, Holds(id), 0, |slots|)| <= 1 ==> Count(slots, defs, id) == CountAny(slots, [id])
  {
    var ids := set x | x in [id] :: x as int;
    assert id in [id];
    assert (id as int) in ids;
    assert forall x :: x in ids ==> x == id as int;
    forall j | 0 <= j < |slots|
      ensures Weight(HoldsAny(ids), slots[j]) == Weight(Holds(id), slots[j])
    {
    }
    TotalSameWeights(slots, HoldsAny(ids), Holds(id));
    TotalOfValid(slots, id, 0);
    if defs(id).stackable {
      CountOfStackable(slots, defs, id);
      var f := FindFirst(slots, id);
      if f.Some? {
        TotalOfValid(slots, id, f.value.slot);
        if |Where(slots, Holds(id), 0, |slots|)| <= 1 {
          OnlyHitCarriesTotal(slots, id, f.value.slot);
        }
      }
    } else {
      CountOfDiscrete(slots, defs, id);
    }
  }

  /** When slot `i` is the only one holding the id, it carries the whole total. */
  lemma OnlyHitCarriesTotal(slots: seq<Slot>, id: int, i: nat)
    requires i < |slots| && Matches(Holds(id), slots[i])
    requires |Where(slots, Holds(id), 0, |slots|)| <= 1
    ensures Total(slots, Holds(id)) == slots[i].value.amount
  {
    var w := Where(slots, Holds(id), 0, |slots|);
    WhereFacts(slots, Holds(id), 0, |slots|);
    assert i in w;
    forall j | 0 <= j < |slots| && j != i
      ensures !Matches(Holds(id), slots[j])
    {
    }
    TotalUpdate(slots, i, None, Holds(id));
    NoHitsNoTotal(slots[i := None], id);
  }

  /** With no slot holding the id its total is zero. */
  lemma {:induction false} NoHitsNoTotal(slots: seq<Slot>, id: int)
    requires forall j :: 0 <= j < |slots| ==> !Matches(Holds(id), slots[j])
    ensures Total(slots, Holds(id)) == 0
    decreases |slots|
  {
    if |slots| > 0 {
      assert forall j :: 0 <= j < |slots| - 1 ==> slots[1..][j] == slots[j + 1];
      NoHitsNoTotal(slots[1..], id);
    }
  }

  /** `countSlot`: the amount in the slot when it holds the id, else 0. */
  function CountSlot(slots: seq<Slot>, slot: int, id: int): Int32 {
    if slot < 0 || slot >= |slots| then 0
    else if slots[slot].None? || slots[slot].value.id != id then 0
    else Min(MAX, slots[slot].value.amount)
  }

  /** For a stackable id, `count` is `countSlot` at the id's first slot. */
  lemma CountIsCountSlotAtFirst(slots: seq<Slot>, defs: Catalog, id: Int32)
    requires defs(id).stackable
    ensures Count(slots, defs, id) == CountSlot(slots, SlotOf(slots, id), id)
  {
    CountOfStackable(slots, defs, id);
  }

  /** Stamping distinct weightless slots with a one-unit stack of the
      probed id adds one unit per slot stamped. */
  lemma {:induction false} StampTotal(slots: seq<Slot>, targets: seq<nat>, v: Slot, p: Probe)
    requires forall k :: 0 <= k < |targets| ==> targets[k] < |slots|
    requires forall k :: 0 <= k < |targets| ==> Weight(p, slots[targets[k]]) == 0
    requires forall k, m :: 0 <= k < m < |targets| ==> targets[k] != targets[m]
    requires Weight(p, v) == 1
    ensures Total(Stamp(slots, targets, v), p) == Total(slots, p) + |targets|
    decreases |targets|
  {
    if |targets| > 0 {
      var prefix := targets[..|targets| - 1];
      var last := targets[|targets| - 1];
      StampTotal(slots, prefix, v, p);
      StampFacts(slots, prefix, v);
      assert last !in prefix;
      TotalUpdate(Stamp(slots, prefix, v), last, v, p);
    }
  }
}

=== FILE: items.dfy ===
/** The values the item container works with: Java-width integers, items,
    catalog definitions, the container record and transaction results. */
module Items {

  /** `Integer.MAX_VALUE` and `Integer.MIN_VALUE`. */
  const MAX: int := 0x7FFF_FFFF
  const MIN: int := -0x8000_0000

  /** A container whose capacity is exactly this many slots is a bank. */
  const BANK_SIZE: int := 800

  /** The `pheld14401` value carried by the definition of a placeholder item. */
  const PLACEHOLDER_MARK: int := 14401

  /** A Java `int`. */
  type Int32 = x: int | -0x8000_0000 <= x <= 0x7FFF_FFFF

  /** Java's narrowing cast from `long` to `int`: keeps the low 32 bits. */
  function ToInt32(x: int): (r: Int32)
    ensures MIN <= x <= MAX ==> r == x
    ensures MAX < x <= MAX + 0x1_0000_0000 ==> r == x - 0x1_0000_0000
    ensures MIN - 0x1_0000_0000 <= x < MIN ==> r == x + 0x1_0000_0000
  {
    (x + 0x8000_0000) % 0x1_0000_0000 - 0x8000_0000
  }

  /** The narrowing wraps: what it drops is a whole number of 2^32 steps,
      so the result is the one `int` congruent to the input modulo 2^32. */
  lemma ToInt32Wraps(x: int, y: Int32)
    ensures (x - ToInt32(x)) % 0x1_0000_0000 == 0
    ensures (x - y) % 0x1_0000_0000 == 0 ==> y == ToInt32(x)
  {
  }

  function Min(a: int, b: int): (r: int)
    ensures r <= a && r <= b && (r == a || r == b)
  {
    if a <= b then a else b
  }

  datatype Option<+T> = None | Some(value: T)

  /** An item stack. `hasProperties` stands for the optional extra state
      that makes every instance unique (such an item never stacks). */
  datatype Item = Item(id: Int32, amount: Int32, hasProperties: bool)

  /** One slot of the container: empty (Java `null`) or an item. */
  type Slot = Option<Item>

  /** The item produced by the one-argument item constructor: one unit, no properties. */
  function OneOf(id: Int32): (it: Item)
    ensures it.id == id && it.amount == 1 && !it.hasProperties
  {
    Item(id, 1, false)
  }

  /** The catalog entry of an item id. `placeheld` names the id's bank
      placeholder (none when it is 0 or less); `pheld14401` equals
      `PLACEHOLDER_MARK` exactly when the id is itself a placeholder. */
  datatype Definition = Definition(stackable: bool, placeheld: Int32, pheld14401: Int32)

  /** The item-definition lookup, which lives outside the container. */
  type Catalog = Int32 -> Definition

  datatype Policy = Regular | FullStacking

  /** Outcome of a transaction: what was asked for (-1 when the item was
      absent), what was done, and the slots touched in the order touched. */
  datatype Result = Result(requested: Int32, completed: Int32, affected: seq<nat>) {
    predicate Success() { completed == requested }
    predicate Failed() { !Success() }
  }

  /** A fixed-capacity slot array, its stacking policy and the dirty flag. */
  datatype Container = Container(slots: seq<Slot>, policy: Policy, dirty: bool) {
    predicate IsBank() { |slots| == BANK_SIZE }
  }

  /** A container after a transaction, with the transaction's result. */
  datatype Outcome = Outcome(container: Container, result: Result)

  /** A fresh container: every slot empty, and dirty from the start. */
  function NewContainer(size: nat, policy: Policy): (c: Container)
    ensures |c.slots| == size && c.policy == policy && c.dirty
    ensures forall i :: 0 <= i < size ==> c.slots[i] == None
  {
    Container(seq(size, _ => None), policy, true)
  }

  /** Whether an item is kept as one aggregated stack in a container with
      this policy: it must carry no properties, and either its definition
      or the container's policy must call for stacking. */
  predicate IsStackable(item: Item, policy: Policy, def: Definition) {
    !item.hasProperties && (def.stackable || policy == FullStacking)
  }

  /** Every occupied slot holds a positive amount. The engine's own
      operations keep this; `insert` and `restore` do not check it. */
  predicate Valid(slots: seq<Slot>) {
    forall i :: 0 <= i < |slots| && slots[i].Some? ==> slots[i].value.amount >= 1
  }
}

=== FILE: remove_laws.dfy ===
/** What `remove` promises: the refusals, the stack branch at the start
    slot, and the unit branch's circular clearing. */
module RemoveLaws {
  import opened Items
  import opened Slots
  import opened Counting
  import opened Scan
  import opened Transactions

  /** A positive `count` means some slot holds the id. */
  lemma CountedIsPresent(slots: seq<Slot>, defs: Catalog, id: Int32)
    requires Count(slots, defs, id) >= 1
    ensures FindFirst(slots, id).Some? && |slots| > 0
  {
    if FindFirst(slots, id).None? {
      if defs(id).stackable {
        CountOfStackable(slots, defs, id);
      } else {
        CountOfDiscrete(slots, defs, id);
        NoHitsNoTotal(slots, id);
      }
    }
  }

  /** The stack branch of `remove` works on the start slot alone. An
      empty start slot fails with no change. Otherwise it takes
      `min(amount, slot amount)` from whatever item the slot holds, which
      need not be the requested id, and it empties the slot when nothing is
      left. The total of the id in that slot drops by what was taken. */
  lemma RemoveStackAt(c: Container, defs: Catalog, it: Item, force: bool, start: int)
    requires StartOk(c.slots, start) && it.amount >= 1 && IsStackable(it, c.policy, defs(it.id))
    requires Count(c.slots, defs, it.id) >= 1 && (force || it.amount <= Count(c.slots, defs, it.id))
    ensures Clamp(start) < |c.slots|
    ensures var s := Clamp(start);
            var o := Remove(c, defs, Some(it), force, start);
            && (c.slots[s].None? ==> o == Outcome(c, Result(it.amount, 0, [])))
            && (c.slots[s].Some? ==>
                  var held := c.slots[s].value;
                  var r := Min(it.amount, held.amount);
                  && o.result == Result(it.amount, r, [s])
                  && o.container.slots[s] == (if held.amount == r then None else Some(held.(amount := held.amount - r)))
                  && (forall j :: 0 <= j < |c.slots| && j != s ==> o.container.slots[j] == c.slots[j])
                  && Total(o.container.slots, Holds(held.id)) == Total(c.slots, Holds(held.id)) - r)
  {
    CountedIsPresent(c.slots, defs, it.id);
    var s := Clamp(start);
    if c.slots[s].Some? {
      var held := c.slots[s].value;
      var r := Min(it.amount, held.amount);
      var v := if held.amount - r == 0 then None else Some(held.(amount := held.amount - r));
      TotalUpdate(c.slots, s, v, Holds(held.id));
    }
  }

  /** Clearing the first `amount` slots that a circular scan from `s`
      finds holding the id: those slots held the id and are now empty,
      every other slot is as before, and the id occupies that many fewer
      slots. */
  lemma ClearScanned(slots: seq<Slot>, id: int, s: nat, amount: int)
    requires (s < |slots| || |slots| == 0) && amount >= 1
    ensures var hits := ScanHits(slots, Holds(id), s);
            var taken := hits[..Min(amount, |hits|)];
            var n := |slots|;
            && (forall k :: 0 <= k < |taken| ==> taken[k] < n)
            && var out := Stamp(slots, taken, None);
            && |taken| == Min(amount, |Where(slots, Holds(id), 0, n)|)
            && (forall k :: 0 <= k < |taken| ==> Matches(Holds(id), slots[taken[k]]) && out[taken[k]].None?)
            && (forall j :: 0 <= j < n && j !in taken ==> out[j] == slots[j])
            && |Where(out, Holds(id), 0, n)| == |Where(slots, Holds(id), 0, n)| - |taken|
  {
    var hits := ScanHits(slots, Holds(id), s);
    var taken := hits[..Min(amount, |hits|)];
    assert |hits| == |Where(slots, Holds(id), 0, |slots|)| by {
      ScanHitsFacts(slots, Holds(id), s);
    }
    ScanPrefixFacts(slots, Holds(id), s, |taken|);
    StampFacts(slots, taken, None);
    StampHits(slots, taken, None, Holds(id));
  }

  /** The unit branch of `remove` clears slots holding the id in circular
      order from the start: the first `min(amount, occurrences)` such
      slots. Nothing else changes, and the id occupies that many fewer slots. */
  lemma RemoveUnits(c: Container, defs: Catalog, it: Item, force: bool, start: int)
    requires StartOk(c.slots, start) && it.amount >= 1 && !IsStackable(it, c.policy, defs(it.id))
    requires Count(c.slots, defs, it.id) >= 1 && (force || it.amount <= Count(c.slots, defs, it.id))
    ensures var o := Remove(c, defs, Some(it), force, start);
            var hits := ScanHits(c.slots, Holds(it.id), Clamp(start));
            var n := |c.slots|;
            && o.result.affected == hits[..Min(it.amount, |hits|)]
            && o.result.completed == Min(it.amount, |Where(c.slots, Holds(it.id), 0, n)|)
            && (forall k :: 0 <= k < |o.result.affected| ==>
                  Matches(Holds(it.id), c.slots[o.result.affected[k]]) && o.container.slots[o.result.affected[k]].None?)
            && (forall j :: 0 <= j < n && j !in o.result.affected ==> o.container.slots[j] == c.slots[j])
            && |Where(o.container.slots, Holds(it.id), 0, n)| == |Where(c.slots, Holds(it.id), 0, n)| - o.result.completed
  {
    var s := Clamp(start);
    var hits := ScanHits(c.slots, Holds(it.id), s);
    var taken := hits[..Min(it.amount, |hits|)];
    assert Remove(c, defs, Some(it), force, start) ==
           Outcome(c.(slots := Stamp(c.slots, taken, None), dirty := true), Result(it.amount, |taken|, taken));
    ClearScanned(c.slots, it.id, s, it.amount);
  }

  /** `remove(item, force)` of a stackable item works on the id's first
      slot: it is the one slot touched, and the id's total there drops by
      what was taken. The three-argument form checks nothing about its
      start slot; this overload supplies the right one. */
  lemma RemoveItemFromFirstSlot(c: Container, defs: Catalog, item: Item, force: bool)
    requires item.amount >= 1 && IsStackable(item, c.policy, defs(item.id))
    requires Count(c.slots, defs, item.id) >= 1 && (force || item.amount <= Count(c.slots, defs, item.id))
    ensures FindFirst(c.slots, item.id).Some?
    ensures var f := FindFirst(c.slots, item.id).value;
            var o := RemoveItem(c, defs, item, force);
            && o.result.affected == [f.slot]
            && o.result.completed == Min(item.amount, f.item.amount)
            && (forall j :: 0 <= j < |c.slots| && j != f.slot ==> o.container.slots[j] == c.slots[j])
            && Total(o.container.slots, Holds(item.id)) == Total(c.slots, Holds(item.id)) - o.result.completed
  {
    CountedIsPresent(c.slots, defs, item.id);
    SlotOfIsFindFirst(c.slots, item.id);
    RemoveStackAt(c, defs, item, force, SlotOf(c.slots, item.id));
  }

  /** `remove(id, force, start)` of a present id. An id whose unit is not
      stackable always loses one occurrence. A stackable one is taken from
      the start slot, so it succeeds exactly when that slot is occupied,
      whatever id the slot holds. */
  lemma RemoveIdAtPresent(c: Container, defs: Catalog, id: Int32, force: bool, start: int)
    requires StartOk(c.slots, start) && Valid(c.slots) && Count(c.slots, defs, id) >= 1
    ensures Clamp(start) < |c.slots|
    ensures var o := RemoveIdAt(c, defs, id, force, start);
            IsStackable(OneOf(id), c.policy, defs(id)) ==>
              (o.result.Success() <==> c.slots[Clamp(start)].Some?)
    ensures var o := RemoveIdAt(c, defs, id, force, start);
            !IsStackable(OneOf(id), c.policy, defs(id)) ==>
              && o.result.Success()
              && |Where(o.container.slots, Holds(id), 0, |c.slots|)| == |Where(c.slots, Holds(id), 0, |c.slots|)| - 1
  {
    CountedIsPresent(c.slots, defs, id);
    if IsStackable(OneOf(id), c.policy, defs(id)) {
      RemoveStackAt(c, defs, OneOf(id), force, start);
    } else {
      var f := FindFirst(c.slots, id).value;
      WhereFacts(c.slots, Holds(id), 0, |c.slots|);
      assert f.slot in Where(c.slots, Holds(id), 0, |c.slots|);
      RemoveUnits(c, defs, OneOf(id), force, start);
    }
  }
}

=== FILE: round_trips.dfy ===
/** `remove` undoes `add`: a successful `add(item)` followed by
    `remove(item, false)` restores the slots, for stacks and for units. */
module RoundTrips {
  import opened Items
  import opened Slots
  import opened Counting
  import opened Scan
  import opened Transactions
  import opened AddLaws
  import opened RemoveLaws

  /** In a valid container `count` covers the id's first stack. */
  lemma CountCoversFirst(slots: seq<Slot>, defs: Catalog, id: Int32)
    requires Valid(slots) && FindFirst(slots, id).Some?
    ensures Count(slots, defs, id) >= FindFirst(slots, id).value.item.amount
  {
    if defs(id).stackable {
      CountOfStackable(slots, defs, id);
    } else {
      CountOfDiscrete(slots, defs, id);
      TotalOfValid(slots, id, FindFirst(slots, id).value.slot);
    }
  }

  /** The stack branch of `remove` at the id's first stack, taking no more
      than the stack holds beyond `keep`, leaves `keep` behind. */
  lemma TakeFromFirstStack(c: Container, defs: Catalog, it: Item, keep: Slot)
    requires Valid(c.slots) && it.amount >= 1 && IsStackable(it, c.policy, defs(it.id))
    requires FindFirst(c.slots, it.id).Some?
    requires var f := FindFirst(c.slots, it.id).value;
             f.item.amount >= it.amount &&
             keep == (if f.item.amount == it.amount then None else Some(f.item.(amount := f.item.amount - it.amount)))
    ensures var f := FindFirst(c.slots, it.id).value;
            var r := RemoveItem(c, defs, it, false);
            r.container.slots == c.slots[f.slot := keep] && r.result.Success()
  {
    CountCoversFirst(c.slots, defs, it.id);
    SlotOfIsFindFirst(c.slots, it.id);
  }

  /** Growing an existing stack and removing the same item restores it. */
  lemma StackRoundTripExisting(c: Container, defs: Catalog, it: Item)
    requires Valid(c.slots) && it.amount >= 1 && IsStackable(it, c.policy, defs(it.id))
    requires FindFirst(c.slots, it.id).Some? && !FindFirst(c.slots, it.id).value.item.hasProperties
    requires AddDefault(c, defs, Some(it), false).result.Success()
    ensures var a := AddDefault(c, defs, Some(it), false);
            var r := RemoveItem(a.container, defs, it, false);
            r.container.slots == c.slots && r.result.Success()
  {
    var f := FindFirst(c.slots, it.id).value;
    var before := f.item.amount;
    var a := AddDefault(c, defs, Some(it), false);
    HeldIsFirstStack(c, defs, it);
    assert !(it.amount > ToInt32(MAX - before));
    assert ToInt32(MAX - before) == MAX - before;
    AddToExistingStack(c, defs, it, false, 0);
    assert a.container.slots == c.slots[f.slot := Some(Item(it.id, before + it.amount, false))];
    FirstIs(a.container.slots, it.id, f.slot);
    TakeFromFirstStack(a.container, defs, it, Some(f.item));
    assert c.slots[f.slot := Some(f.item)] == c.slots;
  }

  /** A new stack, added and then removed, leaves its slot empty again. */
  lemma StackRoundTripNew(c: Container, defs: Catalog, it: Item)
    requires Valid(c.slots) && it.amount >= 1 && IsStackable(it, c.policy, defs(it.id))
    requires FindFirst(c.slots, it.id).None? && !PlaceholderFires(c, defs(it.id), 0)
    requires AddDefault(c, defs, Some(it), false).result.Success()
    ensures var a := AddDefault(c, defs, Some(it), false);
            var r := RemoveItem(a.container, defs, it, false);
            r.container.slots == c.slots && r.result.Success()
  {
    var a := AddDefault(c, defs, Some(it), false);
    AddNewStack(c, defs, it, false, 0);
    var free := NextFreeSlot(c.slots);
    assert free != -1;
    var t := if c.slots[0].None? then 0 else free;
    assert a.container.slots == c.slots[t := Some(Item(it.id, it.amount, false))];
    FirstIs(a.container.slots, it.id, t);
    TakeFromFirstStack(a.container, defs, it, None);
    assert c.slots[t := None] == c.slots;
  }

  /** For a stackable item: a successful non-forced `add` followed by
      `remove(item, false)` succeeds and gives back the original slots,
      provided a stack already present carries no properties and no
      placeholder was consumed. */
  lemma StackRoundTrip(c: Container, defs: Catalog, it: Item)
    requires Valid(c.slots) && it.amount >= 1 && IsStackable(it, c.policy, defs(it.id))
    requires FindFirst(c.slots, it.id).Some? ==> !FindFirst(c.slots, it.id).value.item.hasProperties
    requires FindFirst(c.slots, it.id).None? ==> !PlaceholderFires(c, defs(it.id), 0)
    requires AddDefault(c, defs, Some(it), false).result.Success()
    ensures var a := AddDefault(c, defs, Some(it), false);
            var r := RemoveItem(a.container, defs, it, false);
            r.container.slots == c.slots && r.result.Success()
  {
    if FindFirst(c.slots, it.id).Some? {
      StackRoundTripExisting(c, defs, it);
    } else {
      StackRoundTripNew(c, defs, it);
    }
  }

  /** With no slot matching, the scan finds nothing. */
  lemma {:induction false} NoMatchNoHits(slots: seq<Slot>, p: Probe, hi: nat)
    requires hi <= |slots|
    requires forall j :: 0 <= j < |slots| ==> !Matches(p, slots[j])
    ensures Where(slots, p, 0, hi) == []
    decreases hi
  {
    if hi > 0 {
      NoMatchNoHits(slots, p, hi - 1);
    }
  }

  /** A matching slot with no match before it is the first match. */
  lemma FirstIs(slots: seq<Slot>, id: int, i: nat)
    requires i < |slots| && Matches(Holds(id), slots[i])
    requires forall j :: 0 <= j < i ==> !Matches(Holds(id), slots[j])
    ensures FindFirst(slots, id) == Some(Found(i, slots[i].value))
  {
  }

  /** The non-forced unit add, with room for every unit and nothing to
      unplace, stamps one unit into the first `amount` free slots from 0. */
  lemma UnitAddFills(c: Container, defs: Catalog, it: Item)
    requires Valid(c.slots) && it.amount >= 1
    requires !IsStackable(it, c.policy, defs(it.id))
    requires FindFirst(c.slots, it.id).None? && !PlaceholderFires(c, defs(it.id), 0)
    requires it.amount <= FreeSlots(c.slots) && |c.slots| <= MAX
    ensures var a := AddDefault(c, defs, Some(it), false);
            var hits := ScanHits(c.slots, Free, 0);
            var placed := hits[..Min(it.amount, |hits|)];
            && |placed| == it.amount
            && (forall k :: 0 <= k < |placed| ==> placed[k] < |c.slots| && c.slots[placed[k]].None?)
            && (forall k, m :: 0 <= k < m < |placed| ==> placed[k] != placed[m])
            && a.container.slots == Stamp(c.slots, placed, Some(Item(it.id, 1, it.hasProperties)))
            && a.result.Success()
  {
    HeldWhenAbsent(c, defs, it);
    assert ToInt32(|c.slots| - 0) == |c.slots|;
    AddUnitsPlacement(c, defs, it, false, 0);
    ScanHitsFacts(c.slots, Free, 0);
  }

  /** Stamping one-unit stacks of an absent id into free slots puts the id
      in exactly those slots, with a total of one per slot. */
  lemma UnitsSitExactly(slots: seq<Slot>, placed: seq<nat>, v: Slot, id: int)
    requires forall k :: 0 <= k < |placed| ==> placed[k] < |slots| && slots[placed[k]].None?
    requires forall k, m :: 0 <= k < m < |placed| ==> placed[k] != placed[m]
    requires forall j :: 0 <= j < |slots| ==> !Matches(Holds(id), slots[j])
    requires v.Some? && v.value.id == id && v.value.amount == 1
    ensures forall j :: 0 <= j < |slots| ==> (Matches(Holds(id), Stamp(slots, placed, v)[j]) <==> j in placed)
    ensures Total(Stamp(slots, placed, v), Holds(id)) == |placed|
    ensures |Where(Stamp(slots, placed, v), Holds(id), 0, |slots|)| == |placed|
  {
    StampFacts(slots, placed, v);
    NoHitsNoTotal(slots, id);
    StampTotal(slots, placed, v, Holds(id));
    NoMatchNoHits(slots, Holds(id), |slots|);
    StampHits(slots, placed, v, Holds(id));
  }

  /** A non-forced `remove(item, false)` of a non-stackable item whose
      units sit exactly in `placed`, one each, clears every one of them. */
  lemma UnitRemoveClears(a: Container, defs: Catalog, it: Item, placed: seq<nat>)
    requires Valid(a.slots) && it.amount >= 1 && !defs(it.id).stackable && it.amount <= MAX
    requires !IsStackable(it, a.policy, defs(it.id))
    requires forall j :: 0 <= j < |a.slots| ==> (Matches(Holds(it.id), a.slots[j]) <==> j in placed)
    requires Total(a.slots, Holds(it.id)) == it.amount
    requires |Where(a.slots, Holds(it.id), 0, |a.slots|)| == it.amount
    ensures var r := RemoveItem(a, defs, it, false);
            && |r.container.slots| == |a.slots|
            && (forall j :: 0 <= j < |a.slots| ==> r.container.slots[j] == if j in placed then None else a.slots[j])
            && r.result.Success()
  {
    CountOfDiscrete(a.slots, defs, it.id);
    CountedIsPresent(a.slots, defs, it.id);
    SlotOfIsFindFirst(a.slots, it.id);
    var s := SlotOf(a.slots, it.id);
    RemoveUnits(a, defs, it, false, s);
    var hits := ScanHits(a.slots, Holds(it.id), s);
    ScanHitsFacts(a.slots, Holds(it.id), s);
    var r := Remove(a, defs, Some(it), false, s);
    assert r.result.affected == hits;
    forall j | 0 <= j < |a.slots|
      ensures r.container.slots[j] == if j in placed then None else a.slots[j]
    {
      if j in hits {
        var k :| 0 <= k < |hits| && hits[k] == j;
        assert Matches(Holds(it.id), a.slots[j]);
      }
    }
  }

  /** For a non-stackable item (its definition does not stack) held
      nowhere, with room for every unit and no placeholder consumed: the
      non-forced `add` places every unit, and `remove(item, false)` then
      clears exactly those slots. */
  lemma UnitRoundTrip(c: Container, defs: Catalog, it: Item)
    requires Valid(c.slots) && it.amount >= 1 && !defs(it.id).stackable
    requires !IsStackable(it, c.policy, defs(it.id))
    requires FindFirst(c.slots, it.id).None? && !PlaceholderFires(c, defs(it.id), 0)
    requires it.amount <= FreeSlots(c.slots) && |c.slots| <= MAX
    ensures var a := AddDefault(c, defs, Some(it), false);
            a.result.Success() &&
            var r := RemoveItem(a.container, defs, it, false);
            r.container.slots == c.slots && r.result.Success()
  {
    var v := Some(Item(it.id, 1, it.hasProperties));
    var a := AddDefault(c, defs, Some(it), false);
    UnitAddFills(c, defs, it);
    var hits := ScanHits(c.slots, Free, 0);
    var placed := hits[..Min(it.amount, |hits|)];
    UnitsSitExactly(c.slots, placed, v, it.id);
    StampFacts(c.slots, placed, v);
    UnitRemoveClears(a.container, defs, it, placed);
    var r := RemoveItem(a.container, defs, it, false);
    forall j | 0 <= j < |c.slots|
      ensures r.container.slots[j] == c.slots[j]
    {
      if j in placed {
        var k :| 0 <= k < |placed| && placed[k] == j;
      }
    }
  }

  /** The unit pre-check compares against the capacity less `count`, not
      against the free slots. So a non-forced unit add into a valid
      container with too few free slots passes the check and still fills
      the free slots it finds, completing only part of the request. */
  lemma UnitAddCanBePartial(c: Container, defs: Catalog, it: Item)
    requires Valid(c.slots) && |c.slots| <= MAX
    requires !IsStackable(it, c.policy, defs(it.id))
    requires FindFirst(c.slots, it.id).None? && !PlaceholderFires(c, defs(it.id), 0)
    requires 0 < FreeSlots(c.slots) < it.amount <= |c.slots|
    ensures var a := AddDefault(c, defs, Some(it), false);
            && a.result.completed == FreeSlots(c.slots)
            && a.result.Failed()
            && a.container.slots != c.slots
  {
    var a := AddDefault(c, defs, Some(it), false);
    HeldWhenAbsent(c, defs, it);
    assert ToInt32(|c.slots| - 0) == |c.slots|;
    AddUnitsPlacement(c, defs, it, false, 0);
    var j := a.result.affected[0];
    assert c.slots[j].None? && a.container.slots[j].Some?;
  }

  /** Where the stack round trip breaks: growing a stack that carries
      properties rewrites it as a plain stack, so the removal succeeds
      but gives back the stack without its properties. */
  lemma StackDropsProperties(c: Container, defs: Catalog, it: Item)
    requires Valid(c.slots) && it.amount >= 1 && IsStackable(it, c.policy, defs(it.id))
    requires FindFirst(c.slots, it.id).Some? && FindFirst(c.slots, it.id).value.item.hasProperties
    requires AddDefault(c, defs, Some(it), false).result.Success()
    ensures var f := FindFirst(c.slots, it.id).value;
            var a := AddDefault(c, defs, Some(it), false);
            var r := RemoveItem(a.container, defs, it, false);
            && r.result.Success()
            && r.container.slots == c.slots[f.slot := Some(f.item.(hasProperties := false))]
            && r.container.slots != c.slots
  {
    var f := FindFirst(c.slots, it.id).value;
    var before := f.item.amount;
    var a := AddDefault(c, defs, Some(it), false);
    HeldIsFirstStack(c, defs, it);
    assert !(it.amount > ToInt32(MAX - before));
    assert ToInt32(MAX - before) == MAX - before;
    AddToExistingStack(c, defs, it, false, 0);
    assert a.container.slots == c.slots[f.slot := Some(Item(it.id, before + it.amount, false))];
    FirstIs(a.container.slots, it.id, f.slot);
    TakeFromFirstStack(a.container, defs, it, Some(f.item.(hasProperties := false)));
    assert a.container.slots[f.slot := Some(f.item.(hasProperties := false))]
        == c.slots[f.slot := Some(f.item.(hasProperties := false))];
    assert c.slots[f.slot := Some(f.item.(hasProperties := false))][f.slot] != c.slots[f.slot];
  }

  /** With `count` at one, a non-forced removal of two or more units is
      refused and changes nothing. */
  lemma CountOneRefuses(a: Container, defs: Catalog, it: Item)
    requires it.amount >= 2 && Count(a.slots, defs, it.id) == 1
    ensures RemoveItem(a, defs, it, false) == Outcome(a, Result(it.amount, 0, []))
  {
  }

  /** Where the unit round trip breaks: an item with properties whose
      definition stacks is added one unit per slot, but `count` of a
      stackable id reads only the first of those units. A non-forced
      `remove(item, false)` of two or more units is then refused and
      nothing comes back out. */
  lemma PropertyUnitsStayBehind(c: Container, defs: Catalog, it: Item)
    requires Valid(c.slots) && it.amount >= 2 && it.hasProperties && defs(it.id).stackable
    requires FindFirst(c.slots, it.id).None? && !PlaceholderFires(c, defs(it.id), 0)
    requires it.amount <= FreeSlots(c.slots) && |c.slots| <= MAX
    ensures var a := AddDefault(c, defs, Some(it), false);
            var r := RemoveItem(a.container, defs, it, false);
            && a.result.Success()
            && a.container.slots != c.slots
            && r == Outcome(a.container, Result(it.amount, 0, []))
  {
    var v := Some(Item(it.id, 1, it.hasProperties));
    var a := AddDefault(c, defs, Some(it), false);
    UnitAddFills(c, defs, it);
    var hits := ScanHits(c.slots, Free, 0);
    var placed := hits[..Min(it.amount, |hits|)];
    UnitsCountOne(c.slots, placed, v, defs, it.id);
    CountOneRefuses(a.container, defs, it);
  }

  /** Units of a stackable id stamped into free slots of a container that
      held none: `count` reads only the first of them. */
  lemma UnitsCountOne(slots: seq<Slot>, placed: seq<nat>, v: Slot, defs: Catalog, id: Int32)
    requires |placed| >= 1 && defs(id).stackable
    requires forall k :: 0 <= k < |placed| ==> placed[k] < |slots| && slots[placed[k]].None?
    requires forall k, m :: 0 <= k < m < |placed| ==> placed[k] != placed[m]
    requires forall j :: 0 <= j < |slots| ==> !Matches(Holds(id), slots[j])
    requires v.Some? && v.value.id == id && v.value.amount == 1
    ensures Count(Stamp(slots, placed, v), defs, id) == 1
    ensures Stamp(slots, placed, v) != slots
  {
    var out := Stamp(slots, placed, v);
    UnitsSitExactly(slots, placed, v, id);
    StampFacts(slots, placed, v);
    assert Matches(Holds(id), out[placed[0]]);
    var f := FindFirst(out, id);
    assert f.Some? && f.value.slot in placed;
    CountOfStackable(out, defs, id);
    assert out[placed[0]] != slots[placed[0]];
  }

  /** Where the stack round trip breaks in a bank: a stackable item held
      nowhere whose placeholder is present takes the placeholder's slot,
      and `remove(item, false)` then empties that slot. Both calls
      succeed, but the placeholder is gone. */
  lemma PlaceholderLost(c: Container, defs: Catalog, it: Item)
    requires Valid(c.slots) && it.amount >= 1 && IsStackable(it, c.policy, defs(it.id))
    requires FindFirst(c.slots, it.id).None? && PlaceholderFires(c, defs(it.id), 0)
    ensures var p := FindFirst(c.slots, defs(it.id).placeheld).value.slot;
            var a := AddDefault(c, defs, Some(it), false);
            var r := RemoveItem(a.container, defs, it, false);
            && a.result.Success() && r.result.Success()
            && r.container.slots == c.slots[p := None]
            && r.container.slots != c.slots
  {
    var def := defs(it.id);
    var p := FindFirst(c.slots, def.placeheld).value.slot;
    HeldWhenAbsent(c, defs, it);
    var u := Unplace(c, def, 0, 0);
    assert u.1 == p;
    assert u.0.slots == c.slots[p := None];
    ClearedStaysAbsent(c, u.0, p, it.id);
    var added := Some(Item(it.id, it.amount, false));
    NewStackAtFreeStart(u.0, it, 0, p);
    var a := AddDefault(c, defs, Some(it), false);
    assert a == AddStack(u.0, it, 0, p);
    assert a.container.slots == c.slots[p := added];
    FirstIs(a.container.slots, it.id, p);
    TakeFromFirstStack(a.container, defs, it, None);
    assert c.slots[p := added][p := None] == c.slots[p := None];
    assert c.slots[p := None][p] != c.slots[p];
  }
}

=== FILE: scan.dfy ===
/** The circular slot scan shared by discrete `add` and `remove`: visit
    `(x + start) % size` for x = 0, 1, ..., size - 1, acting on every
    slot that matches until the requested number of slots is reached. */
module Scan {
  import opened Items
  import opened Slots

  /** The slot visited at step x of a scan over n slots that begins at `start`. */
  function Pos(n: nat, start: nat, x: nat): (r: nat)
    requires start < n && x < n
    ensures r < n
  {
    if start + x < n then start + x else start + x - n
  }

  /** `Pos` is the source's `(x + start) % size`. */
  lemma PosIsMod(n: nat, start: nat, x: nat)
    requires start < n && x < n
    ensures Pos(n, start, x) == (x + start) % n
  {
    if start + x >= n {
      assert (x + start) == 1 * n + (start + x - n);
    }
  }

  /** The matching slots among the first x steps of the scan, in visiting order. */
  function ScanWhere(slots: seq<Slot>, p: Probe, start: nat, x: nat): seq<nat>
    requires x <= |slots| && (x == 0 || start < |slots|)
    decreases x
  {
    if x == 0 then []
    else
      var i := Pos(|slots|, start, x - 1);
      ScanWhere(slots, p, start, x - 1) + (if Matches(p, slots[i]) then [i] else [])
  }

  /** A step inside [start, n) extends the range the scan has covered. */
  lemma RotateInside(slots: seq<Slot>, p: Probe, start: nat, x: nat)
    requires start < |slots| && 0 < x && start + x <= |slots|
    requires ScanWhere(slots, p, start, x - 1) == Where(slots, p, start, start + x - 1)
    ensures ScanWhere(slots, p, start, x) == Where(slots, p, start, start + x)
  {
    assert Pos(|slots|, start, x - 1) == start + x - 1;
  }

  /** The first step past the end visits slot 0. */
  lemma RotateWrapFirst(slots: seq<Slot>, p: Probe, start: nat, x: nat)
    requires start < |slots| && 0 < x <= |slots| && start + x - 1 == |slots|
    requires ScanWhere(slots, p, start, x - 1) == Where(slots, p, start, |slots|)
    ensures ScanWhere(slots, p, start, x) == Where(slots, p, start, |slots|) + Where(slots, p, 0, 1)
  {
    assert Pos(|slots|, start, x - 1) == 0;
    assert Where(slots, p, 0, 0) == [];
  }

  /** A later step past the end extends the wrapped range from 0. */
  lemma RotateWrapLater(slots: seq<Slot>, p: Probe, start: nat, x: nat)
    requires start < |slots| && 0 < x <= |slots| && start + x - 1 > |slots|
    requires ScanWhere(slots, p, start, x - 1) ==
             Where(slots, p, start, |slots|) + Where(slots, p, 0, start + x - 1 - |slots|)
    ensures ScanWhere(slots, p, start, x) == Where(slots, p, start, |slots|) + Where(slots, p, 0, start + x - |slots|)
  {
    var i := Pos(|slots|, start, x - 1);
    assert i == start + x - 1 - |slots|;
    var step := if Matches(p, slots[i]) then [i] else [];
    var a := Where(slots, p, start, |slots|);
    var b := Where(slots, p, 0, start + x - 1 - |slots|);
    assert Where(slots, p, 0, start + x - |slots|) == b + step;
    assert (a + b) + step == a + (b + step);
  }

  /** The first x steps cover [start, start + x), wrapping past the end to 0. */
  lemma {:induction false} ScanWhereRotates(slots: seq<Slot>, p: Probe, start: nat, x: nat)
    requires start < |slots| && x <= |slots|
    ensures ScanWhere(slots, p, start, x) ==
            if start + x <= |slots| then Where(slots, p, start, start + x)
            else Where(slots, p, start, |slots|) + Where(slots, p, 0, start + x - |slots|)
    decreases x
  {
    if x > 0 {
      ScanWhereRotates(slots, p, start, x - 1);
      if start + x <= |slots| {
        RotateInside(slots, p, start, x);
      } else if start + x - 1 == |slots| {
        RotateWrapFirst(slots, p, start, x);
      } else {
        RotateWrapLater(slots, p, start, x);
      }
    }
  }

  /** A shorter scan finds a prefix of what a longer one finds. */
  lemma {:induction false} ScanWherePrefix(slots: seq<Slot>, p: Probe, start: nat, x: nat, y: nat)
    requires x <= y <= |slots| && start < |slots|
    ensures |ScanWhere(slots, p, start, x)| <= |ScanWhere(slots, p, start, y)|
    ensures ScanWhere(slots, p, start, x) == ScanWhere(slots, p, start, y)[..|ScanWhere(slots, p, start, x)|]
    decreases y
  {
    if x < y {
      ScanWherePrefix(slots, p, start, x, y - 1);
    }
  }

  /** What the first x steps found lies in range, matches, and does not
      contain the slot of step x. */
  lemma {:induction false} ScanWhereVisited(slots: seq<Slot>, p: Probe, start: nat, x: nat)
    requires start < |slots| && x < |slots|
    ensures forall k :: 0 <= k < |ScanWhere(slots, p, start, x)| ==>
              ScanWhere(slots, p, start, x)[k] < |slots| && Matches(p, slots[ScanWhere(slots, p, start, x)[k]])
    ensures Pos(|slots|, start, x) !in ScanWhere(slots, p, start, x)
  {
    var n := |slots|;
    var found := ScanWhere(slots, p, start, x);
    var i := Pos(n, start, x);
    ScanWhereRotates(slots, p, start, x);
    if start + x <= n {
      WhereMatching(slots, p, start, start + x);
      WhereAvoids(slots, p, start, start + x, i);
    } else {
      WhereJoined(slots, p, start, n, 0, start + x - n, i);
    }
  }

  /** Every slot matching `p`, in the order a circular scan from `start`
      meets them. */
  function ScanHits(slots: seq<Slot>, p: Probe, start: nat): seq<nat>
    requires start < |slots| || |slots| == 0
  {
    if |slots| == 0 then [] else ScanWhere(slots, p, start, |slots|)
  }

  /** The circular scan meets the matching slots at or after `start`
      ascending, then those before it; it meets each matching slot once
      and no other slot. */
  lemma {:induction false} ScanHitsFacts(slots: seq<Slot>, p: Probe, start: nat)
    requires start < |slots| || |slots| == 0
    ensures |slots| > 0 ==> ScanHits(slots, p, start) == Where(slots, p, start, |slots|) + Where(slots, p, 0, start)
    ensures |ScanHits(slots, p, start)| == |Where(slots, p, 0, |slots|)|
    ensures forall k :: 0 <= k < |ScanHits(slots, p, start)| ==>
              ScanHits(slots, p, start)[k] < |slots| && Matches(p, slots[ScanHits(slots, p, start)[k]])
    ensures forall i :: 0 <= i < |slots| && Matches(p, slots[i]) ==> i in ScanHits(slots, p, start)
    ensures forall k, m :: 0 <= k < m < |ScanHits(slots, p, start)| ==>
              ScanHits(slots, p, start)[k] != ScanHits(slots, p, start)[m]
  {
    if |slots| > 0 {
      ScanWhereRotates(slots, p, start, |slots|);
      WhereSplit(slots, p, 0, start, |slots|);
      RotatedHits(slots, p, start);
    }
  }

  /** The hits from `start` to the end followed by those before `start`
      are exactly the matching slots, each once. */
  lemma {:induction false} RotatedHits(slots: seq<Slot>, p: Probe, start: nat)
    requires start < |slots|
    ensures var r := Where(slots, p, start, |slots|) + Where(slots, p, 0, start);
            && (forall k :: 0 <= k < |r| ==> r[k] < |slots| && Matches(p, slots[r[k]]))
            && (forall i :: 0 <= i < |slots| && Matches(p, slots[i]) ==> i in r)
            && (forall k, m :: 0 <= k < m < |r| ==> r[k] != r[m])
  {
    var a := Where(slots, p, start, |slots|);
    var b := Where(slots, p, 0, start);
    WhereFacts(slots, p, start, |slots|);
    WhereFacts(slots, p, 0, start);
    RotatedInRange(slots, p, a, b, start);
    RotatedCovers(slots, p, a, b, start);
    RotatedDistinct(a, b, start);
  }

  lemma {:induction false} RotatedInRange(slots: seq<Slot>, p: Probe, a: seq<nat>, b: seq<nat>, start: nat)
    requires forall k :: 0 <= k < |a| ==> a[k] < |slots| && Matches(p, slots[a[k]])
    requires forall k :: 0 <= k < |b| ==> b[k] < |slots| && Matches(p, slots[b[k]])
    ensures forall k :: 0 <= k < |a + b| ==> (a + b)[k] < |slots| && Matches(p, slots[(a + b)[k]])
  {
    forall k | 0 <= k < |a + b|
      ensures (a + b)[k] < |slots| && Matches(p, slots[(a + b)[k]])
    {
      if k >= |a| {
        assert (a + b)[k] == b[k - |a|];
      }
    }
  }

  lemma {:induction false} RotatedCovers(slots: seq<Slot>, p: Probe, a: seq<nat>, b: seq<nat>, start: nat)
    requires start < |slots|
    requires a == Where(slots, p, start, |slots|) && b == Where(slots, p, 0, start)
    ensures forall i :: 0 <= i < |slots| && Matches(p, slots[i]) ==> i in a + b
  {
    WhereFacts(slots, p, start, |slots|);
    WhereFacts(slots, p, 0, start);
    forall i | 0 <= i < |slots| && Matches(p, slots[i])
      ensures i in a + b
    {
      if i < start {
        assert i in b;
      } else {
        assert i in a;
      }
    }
  }

  lemma {:induction false} RotatedDistinct(a: seq<nat>, b: seq<nat>, start: nat)
    requires forall k, m :: 0 <= k < m < |a| ==> a[k] < a[m]
    requires forall k, m :: 0 <= k < m < |b| ==> b[k] < b[m]
    requires forall k :: 0 <= k < |a| ==> start <= a[k]
    requires forall k :: 0 <= k < |b| ==> b[k] < start
    ensures forall k, m :: 0 <= k < m < |a + b| ==> (a + b)[k] != (a + b)[m]
  {
    forall k, m | 0 <= k < m < |a + b|
      ensures (a + b)[k] != (a + b)[m]
    {
      if m < |a| {
        assert (a + b)[k] == a[k] && (a + b)[m] == a[m];
      } else if k >= |a| {
        assert (a + b)[k] == b[k - |a|] && (a + b)[m] == b[m - |a|];
      } else {
        assert (a + b)[k] == a[k] && (a + b)[m] == b[m - |a|];
      }
    }
  }

  /** The first m hits of the scan lie in range, match and are distinct. */
  lemma ScanPrefixFacts(slots: seq<Slot>, p: Probe, start: nat, m: nat)
    requires start < |slots| || |slots| == 0
    requires m <= |ScanHits(slots, p, start)|
    ensures var taken := ScanHits(slots, p, start)[..m];
            && (forall k :: 0 <= k < |taken| ==> taken[k] < |slots| && Matches(p, slots[taken[k]]))
            && (forall k, j :: 0 <= k < j < |taken| ==> taken[k] != taken[j])
  {
    ScanHitsFacts(slots, p, start);
  }

  /** Stopping after `amount` hits leaves the first `amount` hits of the whole scan. */
  lemma {:induction false} ScanStopsEarly(slots: seq<Slot>, p: Probe, start: nat, x: nat, amount: int)
    requires start < |slots| && x <= |slots|
    requires |ScanWhere(slots, p, start, x)| == amount
    ensures var hits := ScanHits(slots, p, start);
            ScanWhere(slots, p, start, x) == hits[..Min(amount, |hits|)]
  {
    ScanWherePrefix(slots, p, start, x, |slots|);
  }

  /** A scan that never stopped early found every hit. */
  lemma {:induction false} ScanRunsOut(slots: seq<Slot>, p: Probe, start: nat, amount: int)
    requires start < |slots| || |slots| == 0
    requires amount >= 1
    requires |slots| == 0 || |ScanWhere(slots, p, start, |slots|)| < amount
    ensures var hits := ScanHits(slots, p, start);
            ScanWhere(slots, p, start, |slots|) == hits[..Min(amount, |hits|)]
  {
  }

  /** One step of the scan loop: the slot visited at step x is untouched by
      the earlier steps, and the step extends what they found by that slot
      exactly when it matches. */
  lemma ScanStep(slots: seq<Slot>, p: Probe, v: Slot, start: nat, x: nat)
    requires start < |slots| && x < |slots|
    ensures var found := ScanWhere(slots, p, start, x);
            var i := Pos(|slots|, start, x);
            && (forall k :: 0 <= k < |found| ==> found[k] < |slots|)
            && Stamp(slots, found, v)[i] == slots[i]
            && ScanWhere(slots, p, start, x + 1) == found + (if Matches(p, slots[i]) then [i] else [])
            && Stamp(slots, found + [i], v) == Stamp(slots, found, v)[i := v]
  {
    var found := ScanWhere(slots, p, start, x);
    ScanWhereVisited(slots, p, start, x);
    StampFacts(slots, found, v);
    StampAppend(slots, found, Pos(|slots|, start, x), v);
  }

  /** The source's scan loop: from `start`, overwrite each slot matching
      `p` with `v` until `amount` slots are done or the scan ends. */
  method ScanStamp(slots: seq<Slot>, p: Probe, v: Slot, start: nat, amount: int)
    returns (out: seq<Slot>, affected: seq<nat>, left: int)
    requires start < |slots| || |slots| == 0
    requires amount >= 1
    requires !Matches(p, v)
    ensures var hits := ScanHits(slots, p, start);
            affected == hits[..Min(amount, |hits|)]
    ensures left == amount - |affected|
    ensures forall k :: 0 <= k < |affected| ==> affected[k] < |slots|
    ensures out == Stamp(slots, affected, v)
  {
    var n := |slots|;
    out := slots;
    affected := [];
    left := amount;
    var x := 0;
    while x < n
      invariant 0 <= x <= n
      invariant affected == ScanWhere(slots, p, start, x)
      invariant forall k :: 0 <= k < |affected| ==> affected[k] < n
      invariant left == amount - |affected| && left >= 1
      invariant out == Stamp(slots, affected, v)
    {
      var i := (x + start) % n;
      PosIsMod(n, start, x);
      ScanStep(slots, p, v, start, x);
      if Matches(p, out[i]) {
        out := out[i := v];
        affected := affected + [i];
        left := left - 1;
        if left == 0 {
          ScanStopsEarly(slots, p, start, x + 1, amount);
          return;
        }
      }
      x := x + 1;
    }
    ScanRunsOut(slots, p, start, amount);
  }
}

=== FILE: slots.dfy ===
/** The slot array store: positional access and the linear scans over the
    slots (first free slot, free and occupied counts, find by id). */
module Slots {
  import opened Items

  /** What a scan looks for in a slot. */
  datatype Probe = Free | Taken | Holds(id: int) | HoldsAny(ids: set<int>)

  predicate Matches(p: Probe, s: Slot) {
    match p
    case Free => s.None?
    case Taken => s.Some?
    case Holds(id) => s.Some? && s.value.id == id
    case HoldsAny(ids) => s.Some? && s.value.id in ids
  }

  /** The indices in [lo, hi) whose slot matches `p`, in increasing order. */
  function Where(slots: seq<Slot>, p: Probe, lo: nat, hi: nat): (r: seq<nat>)
    requires lo <= hi <= |slots|
    ensures |r| <= hi - lo
    decreases hi
  {
    if lo == hi then []
    else Where(slots, p, lo, hi - 1) + (if Matches(p, slots[hi - 1]) then [hi - 1] else [])
  }

  /** `Where` lists exactly the matching indices of the range, ascending. */
  lemma {:induction false} WhereFacts(slots: seq<Slot>, p: Probe, lo: nat, hi: nat)
    requires lo <= hi <= |slots|
    ensures forall k :: 0 <= k < |Where(slots, p, lo, hi)| ==>
              lo <= Where(slots, p, lo, hi)[k] < hi && Matches(p, slots[Where(slots, p, lo, hi)[k]])
    ensures forall i :: lo <= i < hi && Matches(p, slots[i]) ==> i in Where(slots, p, lo, hi)
    ensures forall k, m :: 0 <= k < m < |Where(slots, p, lo, hi)| ==>
              Where(slots, p, lo, hi)[k] < Where(slots, p, lo, hi)[m]
    decreases hi
  {
    if lo < hi {
      WhereFacts(slots, p, lo, hi - 1);
      var w := Where(slots, p, lo, hi - 1);
      if Matches(p, slots[hi - 1]) {
        assert Where(slots, p, lo, hi) == w + [hi - 1];
      } else {
        assert Where(slots, p, lo, hi) == w;
      }
    }
  }

  /** Every hit of the range lies in it and matches. */
  lemma WhereMatching(slots: seq<Slot>, p: Probe, lo: nat, hi: nat)
    requires lo <= hi <= |slots|
    ensures forall k :: 0 <= k < |Where(slots, p, lo, hi)| ==>
              lo <= Where(slots, p, lo, hi)[k] < hi && Matches(p, slots[Where(slots, p, lo, hi)[k]])
  {
    WhereFacts(slots, p, lo, hi);
  }

  /** An index outside the range is never a hit of it. */
  lemma {:induction false} WhereAvoids(slots: seq<Slot>, p: Probe, lo: nat, hi: nat, i: int)
    requires lo <= hi <= |slots| && (i < lo || i >= hi)
    ensures i !in Where(slots, p, lo, hi)
    decreases hi
  {
    if lo < hi {
      WhereAvoids(slots, p, lo, hi - 1, i);
    }
  }

  /** The hits of two ranges, joined, still lie in the slots and match,
      and an index outside both ranges is not among them. */
  lemma WhereJoined(slots: seq<Slot>, p: Probe, lo1: nat, hi1: nat, lo2: nat, hi2: nat, i: int)
    requires lo1 <= hi1 <= |slots| && lo2 <= hi2 <= |slots|
    requires (i < lo1 || i >= hi1) && (i < lo2 || i >= hi2)
    ensures var w := Where(slots, p, lo1, hi1) + Where(slots, p, lo2, hi2);
            && (forall k :: 0 <= k < |w| ==> w[k] < |slots| && Matches(p, slots[w[k]]))
            && i !in w
  {
    var a := Where(slots, p, lo1, hi1);
    var b := Where(slots, p, lo2, hi2);
    WhereMatching(slots, p, lo1, hi1);
    WhereMatching(slots, p, lo2, hi2);
    WhereAvoids(slots, p, lo1, hi1, i);
    WhereAvoids(slots, p, lo2, hi2, i);
    forall k | 0 <= k < |a + b|
      ensures (a + b)[k] < |slots| && Matches(p, slots[(a + b)[k]])
    {
      if k < |a| {
        assert (a + b)[k] == a[k];
      } else {
        assert (a + b)[k] == b[k - |a|];
      }
    }
  }

  /** Splitting the range splits the hits. */
  lemma {:induction false} WhereSplit(slots: seq<Slot>, p: Probe, lo: nat, mid: nat, hi: nat)
    requires lo <= mid <= hi <= |slots|
    ensures Where(slots, p, lo, hi) == Where(slots, p, lo, mid) + Where(slots, p, mid, hi)
    decreases hi
  {
    if hi > mid {
      WhereSplit(slots, p, lo, mid, hi - 1);
    }
  }

  /** The hits in [lo, hi) depend only on the slots in that range. */
  lemma {:induction false} WhereLocal(a: seq<Slot>, b: seq<Slot>, p: Probe, lo: nat, hi: nat)
    requires lo <= hi <= |a| && hi <= |b|
    requires forall i :: lo <= i < hi ==> a[i] == b[i]
    ensures Where(a, p, lo, hi) == Where(b, p, lo, hi)
    decreases hi
  {
    if lo < hi {
      WhereLocal(a, b, p, lo, hi - 1);
    }
  }

  /** Every slot in the range matches exactly when every index is a hit. */
  lemma {:induction false} WhereAll(slots: seq<Slot>, p: Probe, lo: nat, hi: nat)
    requires lo <= hi <= |slots|
    ensures |Where(slots, p, lo, hi)| == hi - lo <==> forall i :: lo <= i < hi ==> Matches(p, slots[i])
    decreases hi
  {
    if lo < hi {
      WhereAll(slots, p, lo, hi - 1);
    }
  }

  /** Each slot is either free or taken, so the two counts fill the range. */
  lemma {:induction false} FreePlusTaken(slots: seq<Slot>, lo: nat, hi: nat)
    requires lo <= hi <= |slots|
    ensures |Where(slots, Free, lo, hi)| + |Where(slots, Taken, lo, hi)| == hi - lo
    decreases hi
  {
    if lo < hi {
      FreePlusTaken(slots, lo, hi - 1);
    }
  }

  /** The first index at or after `i` whose slot matches `p`, or -1. */
  function FirstFrom(slots: seq<Slot>, p: Probe, i: nat): (r: int)
    requires i <= |slots|
    ensures r == -1 || (i <= r < |slots| && Matches(p, slots[r]))
    ensures r == -1 <==> forall j :: i <= j < |slots| ==> !Matches(p, slots[j])
    ensures r != -1 ==> forall j :: i <= j < r ==> !Matches(p, slots[j])
    decreases |slots| - i
  {
    if i == |slots| then -1
    else if Matches(p, slots[i]) then i
    else FirstFrom(slots, p, i + 1)
  }

  /** `nextFreeSlot`: the lowest empty slot, or -1 when every slot is taken. */
  function NextFreeSlot(slots: seq<Slot>): (r: int)
    ensures r == -1 <==> forall j :: 0 <= j < |slots| ==> slots[j].Some?
    ensures r != -1 ==> 0 <= r < |slots| && slots[r].None?
    ensures r != -1 ==> forall j :: 0 <= j < r ==> slots[j].Some?
  {
    var r := FirstFrom(slots, Free, 0);
    assert forall j :: 0 <= j < |slots| ==> (Matches(Free, slots[j]) <==> slots[j].None?);
    r
  }

  /** `freeSlots`: how many slots are empty. */
  function FreeSlots(slots: seq<Slot>): (r: nat)
    ensures r <= |slots|
    ensures r == 0 <==> forall j :: 0 <= j < |slots| ==> slots[j].Some?
    ensures r == |slots| <==> forall j :: 0 <= j < |slots| ==> slots[j].None?
    ensures r == |slots| - |Where(slots, Taken, 0, |slots|)|
  {
    var n := |slots|;
    FreePlusTaken(slots, 0, n);
    WhereAll(slots, Free, 0, n);
    WhereAll(slots, Taken, 0, n);
    assert (forall j :: 0 <= j < n ==> Matches(Free, slots[j])) <==> (forall j :: 0 <= j < n ==> slots[j].None?);
    assert (forall j :: 0 <= j < n ==> Matches(Taken, slots[j])) <==> (forall j :: 0 <= j < n ==> slots[j].Some?);
    |Where(slots, Free, 0, n)|
  }

  /** `occupiedSlots`: the capacity minus the free slots. */
  function OccupiedSlots(slots: seq<Slot>): (r: nat)
    ensures r == |Where(slots, Taken, 0, |slots|)|
    ensures r == 0 <==> forall j :: 0 <= j < |slots| ==> slots[j].None?
  {
    FreePlusTaken(slots, 0, |slots|);
    |slots| - FreeSlots(slots)
  }

  /** `full`: no empty slot is left. */
  predicate Full(slots: seq<Slot>) {
    NextFreeSlot(slots) == -1
  }

  /** `isEmpty`: every slot is free. */
  predicate IsEmpty(slots: seq<Slot>) {
    FreeSlots(slots) == |slots|
  }

  /** A container is full exactly when it has no free slot. */
  lemma FullIffNoFreeSlots(slots: seq<Slot>)
    ensures Full(slots) <==> FreeSlots(slots) == 0
    ensures IsEmpty(slots) <==> OccupiedSlots(slots) == 0
  {
  }

  /** The `(slot, item)` pair the finders return. */
  datatype Found = Found(slot: nat, item: Item)

  /** `findFirst(int)`: the lowest slot holding the id, with its item. */
  function FindFirst(slots: seq<Slot>, id: int): (r: Option<Found>)
    ensures r.None? <==> forall j :: 0 <= j < |slots| ==> !Matches(Holds(id), slots[j])
    ensures r.Some? ==> r.value.slot < |slots| && slots[r.value.slot] == Some(r.value.item)
                        && r.value.item.id == id
    ensures r.Some? ==> forall j :: 0 <= j < r.value.slot ==> !Matches(Holds(id), slots[j])
  {
    var i := FirstFrom(slots, Holds(id), 0);
    if i == -1 then None else Some(Found(i, slots[i].value))
  }

  /** `findFirst(Set)`: the lowest slot holding any of the ids, with its item. */
  function FindFirstOf(slots: seq<Slot>, ids: set<int>): (r: Option<Found>)
    ensures r.None? <==> forall j :: 0 <= j < |slots| ==> !Matches(HoldsAny(ids), slots[j])
    ensures r.Some? ==> r.value.slot < |slots| && slots[r.value.slot] == Some(r.value.item)
                        && r.value.item.id in ids
    ensures r.Some? ==> forall j :: 0 <= j < r.value.slot ==> !Matches(HoldsAny(ids), slots[j])
  {
    var i := FirstFrom(slots, HoldsAny(ids), 0);
    if i == -1 then None else Some(Found(i, slots[i].value))
  }

  /** `findAll`: every slot holding the id, with its item, in slot order. */
  function FindAll(slots: seq<Slot>, id: int): (r: seq<Found>)
    ensures forall k :: 0 <= k < |r| ==> r[k].slot < |slots| && slots[r[k].slot] == Some(r[k].item)
                                         && r[k].item.id == id
    ensures forall j :: 0 <= j < |slots| && Matches(Holds(id), slots[j]) ==>
              exists k :: 0 <= k < |r| && r[k].slot == j
    ensures forall k, m :: 0 <= k < m < |r| ==> r[k].slot < r[m].slot
  {
    var w := Where(slots, Holds(id), 0, |slots|);
    WhereFacts(slots, Holds(id), 0, |slots|);
    var r := seq(|w|, k requires 0 <= k < |w| && w[k] < |slots| => Found(w[k], slots[w[k]].value));
    assert forall k :: 0 <= k < |w| ==> r[k].slot == w[k];
    r
  }

  /** `slotOf`: the lowest slot holding the id, or -1. */
  function SlotOf(slots: seq<Slot>, id: int): int {
    FirstFrom(slots, Holds(id), 0)
  }

  /** `slotOf` and `findFirst` agree on where an id first occurs. */
  lemma SlotOfIsFindFirst(slots: seq<Slot>, id: int)
    ensures SlotOf(slots, id) == -1 <==> FindFirst(slots, id).None?
    ensures FindFirst(slots, id).Some? ==> SlotOf(slots, id) == FindFirst(slots, id).value.slot
  {
  }

  /** `get`: the slot's item, or nothing when the index is out of range. */
  function Get(slots: seq<Slot>, slot: int): Slot {
    if 0 <= slot < |slots| then slots[slot] else None
  }

  /** `getId`: the id in the slot, or -1 when it is empty or out of range. */
  function GetId(slots: seq<Slot>, slot: int): int {
    var s := Get(slots, slot);
    if s.None? then -1 else s.value.id
  }

  /** `hasAt(slot)`: the index is in range and its slot is occupied. */
  predicate HasAt(slots: seq<Slot>, slot: int) {
    0 <= slot < |slots| && slots[slot].Some?
  }

  /** `hasAt(slot, id)`: the slot holds the id. The source does not check
      the index, so an index outside the capacity throws. */
  function HasAtId(slots: seq<Slot>, slot: int, id: int): (r: bool)
    requires 0 <= slot < |slots|
    ensures r <==> HasAt(slots, slot) && GetId(slots, slot) == id
  {
    slots[slot].Some? && slots[slot].value.id == id
  }

  /** The positional queries agree with one another. */
  lemma PositionalQueriesAgree(slots: seq<Slot>, slot: int)
    ensures HasAt(slots, slot) <==> Get(slots, slot).Some?
    ensures HasAt(slots, slot) ==> HasAtId(slots, slot, GetId(slots, slot))
    ensures !HasAt(slots, slot) ==> GetId(slots, slot) == -1
  {
  }

  /** `slots` with every index in `targets` overwritten by `v`. */
  function Stamp(slots: seq<Slot>, targets: seq<nat>, v: Slot): (r: seq<Slot>)
    requires forall k :: 0 <= k < |targets| ==> targets[k] < |slots|
    ensures |r| == |slots|
  {
    if |targets| == 0 then slots
    else Stamp(slots, targets[..|targets| - 1], v)[targets[|targets| - 1] := v]
  }

  /** A stamped slot holds `v`; every other slot is untouched. */
  lemma {:induction false} StampFacts(slots: seq<Slot>, targets: seq<nat>, v: Slot)
    requires forall k :: 0 <= k < |targets| ==> targets[k] < |slots|
    ensures forall j :: 0 <= j < |slots| ==>
              Stamp(slots, targets, v)[j] == if j in targets then v else slots[j]
    decreases |targets|
  {
    if |targets| > 0 {
      var prefix := targets[..|targets| - 1];
      StampFacts(slots, prefix, v);
      assert forall j :: j in targets <==> j in prefix || j == targets[|targets| - 1];
    }
  }

  /** Overwriting one slot changes the number of hits by whether the old
      and the new content match. */
  lemma WhereUpdate(slots: seq<Slot>, i: nat, v: Slot, p: Probe)
    requires i < |slots|
    ensures |Where(slots[i := v], p, 0, |slots|)| ==
            |Where(slots, p, 0, |slots|)| - (if Matches(p, slots[i]) then 1 else 0)
                                           + (if Matches(p, v) then 1 else 0)
  {
    var n := |slots|;
    var s' := slots[i := v];
    WhereSplit(slots, p, 0, i, n);
    WhereSplit(slots, p, i, i + 1, n);
    WhereSplit(s', p, 0, i, n);
    WhereSplit(s', p, i, i + 1, n);
    WhereLocal(slots, s', p, 0, i);
    WhereLocal(slots, s', p, i + 1, n);
  }

  /** Stamping distinct slots whose match status the new content flips
      moves the number of hits by the number of slots stamped. */
  lemma {:induction false} StampHits(slots: seq<Slot>, targets: seq<nat>, v: Slot, p: Probe)
    requires forall k :: 0 <= k < |targets| ==> targets[k] < |slots|
    requires forall k :: 0 <= k < |targets| ==> Matches(p, slots[targets[k]]) != Matches(p, v)
    requires forall k, m :: 0 <= k < m < |targets| ==> targets[k] != targets[m]
    ensures |Where(Stamp(slots, targets, v), p, 0, |slots|)| ==
            |Where(slots, p, 0, |slots|)| + (if Matches(p, v) then |targets| else -|targets|)
    decreases |targets|
  {
    if |targets| > 0 {
      var prefix := targets[..|targets| - 1];
      var last := targets[|targets| - 1];
      StampHits(slots, prefix, v, p);
      StampFacts(slots, prefix, v);
      assert last !in prefix;
      WhereUpdate(Stamp(slots, prefix, v), last, v, p);
    }
  }

  /** Stamping one more slot is a single update of the stamped slots. */
  lemma StampAppend(slots: seq<Slot>, targets: seq<nat>, i: nat, v: Slot)
    requires forall k :: 0 <= k < |targets| ==> targets[k] < |slots|
    requires i < |slots|
    ensures Stamp(slots, targets + [i], v) == Stamp(slots, targets, v)[i := v]
  {
    assert (targets + [i])[..|targets|] == targets;
  }
}

=== FILE: transactions.dfy ===
/** The transactional operations: `add` and `remove` with their
    overloads. Each returns the new container with a `Result`. A stackable
    item is kept as one aggregated stack. Any other item takes one slot
    per unit, and those slots are found by a circular scan from a start slot. */
module Transactions {
  import opened Items
  import opened Slots
  import opened Counting
  import opened Scan
  import opened Containers

  /** The start slots a transaction accepts. The source only raises a
      negative start to 0. A start past the end throws only where a stack
      branch reads `items[start]`. Every other path accepts it, and the
      unit scans take it modulo the capacity. The model admits only starts
      inside the capacity. */
  predicate StartOk(slots: seq<Slot>, start: int) {
    start < |slots| || |slots| == 0
  }

  /** A negative start is raised to 0. */
  function Clamp(start: int): nat {
    if start < 0 then 0 else start
  }

  /** The amount `add` measures the item against. It is `count(id)`,
      except that a stack in a full-stacking container counts only its
      first stack. */
  function Held(c: Container, defs: Catalog, it: Item): Int32 {
    var f := FindFirst(c.slots, it.id);
    if IsStackable(it, c.policy, defs(it.id)) && c.policy == FullStacking && f.Some? then f.value.item.amount
    else Count(c.slots, defs, it.id)
  }

  /** For a stackable item with a stack present, the held amount is that
      first stack's amount, under either policy. */
  lemma HeldIsFirstStack(c: Container, defs: Catalog, it: Item)
    requires IsStackable(it, c.policy, defs(it.id)) && FindFirst(c.slots, it.id).Some?
    ensures Held(c, defs, it) == FindFirst(c.slots, it.id).value.item.amount
  {
    if c.policy != FullStacking {
      CountOfStackable(c.slots, defs, it.id);
    }
  }

  /** The pre-check of a non-forced `add`: a stack must not grow past MAX,
      and units must not exceed the capacity less what is already held.
      Both differences are Java `int` arithmetic. */
  predicate Refused(n: nat, it: Item, stackable: bool, amt: Int32, force: bool) {
    !force && (if stackable then it.amount > ToInt32(MAX - amt) else it.amount > ToInt32(n - amt))
  }

  /** When a bank receives an item it holds none of, and the item has a
      placeholder, the first slot holding the placeholder is cleared. */
  predicate PlaceholderFires(c: Container, def: Definition, amt: Int32) {
    && c.IsBank() && def.placeheld > 0 && def.pheld14401 != PLACEHOLDER_MARK && amt <= 0
    && FindFirst(c.slots, def.placeheld).Some?
  }

  /** The placeholder step of `add`. It returns the container and the
      slot the placement begins at. */
  function Unplace(c: Container, def: Definition, amt: Int32, s: nat): (r: (Container, nat))
    requires StartOk(c.slots, s)
    ensures |r.0.slots| == |c.slots| && r.0.policy == c.policy && StartOk(r.0.slots, r.1)
    ensures !PlaceholderFires(c, def, amt) ==> r == (c, s)
    ensures PlaceholderFires(c, def, amt) ==>
              var p := FindFirst(c.slots, def.placeheld).value.slot;
              r.1 == p && r.0.slots[p].None? && r.0.dirty &&
              forall j :: 0 <= j < |c.slots| && j != p ==> r.0.slots[j] == c.slots[j]
    ensures Valid(c.slots) ==> Valid(r.0.slots)
  {
    if PlaceholderFires(c, def, amt) then
      var p := FindFirst(c.slots, def.placeheld).value.slot;
      (Set(c, p, None), p)
    else (c, s)
  }

  /** The stackable branch of `add`. With no stack of the id, the full
      amount goes to the start slot when it is empty, else to the first
      free slot, and nothing happens when the container is full. Otherwise
      the first stack grows by the amount, saturating at MAX. */
  function AddStack(c: Container, it: Item, amt: Int32, s: nat): (o: Outcome)
    requires StartOk(c.slots, s) && it.amount >= 1
    ensures |o.container.slots| == |c.slots| && o.container.policy == c.policy
    ensures o.result.requested == it.amount
    ensures 0 <= o.result.completed <= it.amount
    ensures |o.result.affected| <= 1
    ensures forall k :: 0 <= k < |o.result.affected| ==> o.result.affected[k] < |c.slots|
    ensures o.container.slots != c.slots ==> o.container.dirty
    ensures Valid(c.slots) && (FindFirst(c.slots, it.id).Some? ==> amt == FindFirst(c.slots, it.id).value.item.amount)
            ==> Valid(o.container.slots)
  {
    var index := FindFirst(c.slots, it.id);
    if index.None? then
      var free := NextFreeSlot(c.slots);
      if free == -1 then Outcome(c, Result(it.amount, 0, []))
      else
        var target := if c.slots[s].None? then s else free;
        Outcome(c.(slots := c.slots[target := Some(Item(it.id, it.amount, false))], dirty := true),
                Result(it.amount, it.amount, [target]))
    else
      var i := index.value.slot;
      var add := if amt + it.amount > MAX then ToInt32(MAX - amt) else it.amount;
      Outcome(c.(slots := c.slots[i := Some(Item(it.id, ToInt32(amt + add), false))], dirty := true),
              Result(it.amount, add, [i]))
  }

  /** The unit branch of `add`: one unit, with the item's properties, in
      each free slot the circular scan from `s` meets, until the amount is
      placed or the scan ends. */
  function AddUnits(c: Container, it: Item, s: nat): (o: Outcome)
    requires StartOk(c.slots, s) && it.amount >= 1
    ensures |o.container.slots| == |c.slots| && o.container.policy == c.policy && o.container.dirty
    ensures o.result.requested == it.amount
    ensures 0 <= o.result.completed <= it.amount
    ensures o.result.completed == |o.result.affected|
    ensures forall k :: 0 <= k < |o.result.affected| ==> o.result.affected[k] < |c.slots|
    ensures Valid(c.slots) ==> Valid(o.container.slots)
  {
    var hits := ScanHits(c.slots, Free, s);
    ScanHitsFacts(c.slots, Free, s);
    var placed := hits[..Min(it.amount, |hits|)];
    var v := Some(Item(it.id, 1, it.hasProperties));
    StampFacts(c.slots, placed, v);
    Outcome(c.(slots := Stamp(c.slots, placed, v), dirty := true), Result(it.amount, |placed|, placed))
  }

  /** `add(Item, boolean, int)`: nothing for an absent item or a
      non-positive amount; then the pre-check unless forced; then the
      placeholder step; then the stack or unit branch. */
  function Add(c: Container, defs: Catalog, item: Option<Item>, force: bool, start: int): (o: Outcome)
    requires StartOk(c.slots, start)
    ensures |o.container.slots| == |c.slots| && o.container.policy == c.policy
    ensures o.result.requested == if item.None? then -1 else item.value.amount
    ensures item.None? || item.value.amount <= 0 ==>
              o.container == c && o.result.completed == 0 && o.result.affected == []
    ensures 0 <= o.result.completed && (o.result.requested >= 0 ==> o.result.completed <= o.result.requested)
    ensures forall k :: 0 <= k < |o.result.affected| ==> o.result.affected[k] < |c.slots|
    ensures o.container.slots != c.slots ==> o.container.dirty
    ensures Valid(c.slots) ==> Valid(o.container.slots)
  {
    if item.None? then Outcome(c, Result(-1, 0, []))
    else if item.value.amount <= 0 then Outcome(c, Result(item.value.amount, 0, []))
    else
      var it := item.value;
      var def := defs(it.id);
      var stackable := IsStackable(it, c.policy, def);
      var amt := Held(c, defs, it);
      if Refused(|c.slots|, it, stackable, amt, force) then Outcome(c, Result(it.amount, 0, []))
      else
        var u := Unplace(c, def, amt, Clamp(start));
        if stackable then
          AddStackKeepsValid(c, defs, it, Clamp(start));
          AddStack(u.0, it, amt, u.1)
        else AddUnits(u.0, it, u.1)
  }

  /** In a valid container the stack branch sees the held amount as the
      amount of its first stack, so it keeps the container valid. */
  lemma AddStackKeepsValid(c: Container, defs: Catalog, it: Item, s: nat)
    requires StartOk(c.slots, s) && IsStackable(it, c.policy, defs(it.id))
    ensures var amt := Held(c, defs, it);
            var u := Unplace(c, defs(it.id), amt, s);
            Valid(c.slots) && FindFirst(u.0.slots, it.id).Some? ==>
              amt == FindFirst(u.0.slots, it.id).value.item.amount
  {
    var amt := Held(c, defs, it);
    var u := Unplace(c, defs(it.id), amt, s);
    if Valid(c.slots) && FindFirst(u.0.slots, it.id).Some? {
      if FindFirst(c.slots, it.id).Some? {
        HeldIsFirstStack(c, defs, it);
        assert !PlaceholderFires(c, defs(it.id), amt);
      }
    }
  }

  /** The stackable branch of `remove`: take up to the amount from the
      start slot, emptying it when nothing is left. The source does not
      check which item the start slot holds. */
  function TakeStack(c: Container, it: Item, s: nat): (o: Outcome)
    requires s < |c.slots| && it.amount >= 1
    ensures |o.container.slots| == |c.slots| && o.container.policy == c.policy
    ensures o.result.requested == it.amount
    ensures o.result.completed <= it.amount
    ensures forall k :: 0 <= k < |o.result.affected| ==> o.result.affected[k] < |c.slots|
    ensures o.container.slots != c.slots ==> o.container.dirty
    ensures Valid(c.slots) ==> Valid(o.container.slots) && o.result.completed >= 0
  {
    var cur := c.slots[s];
    if cur.None? then Outcome(c, Result(it.amount, 0, []))
    else
      var r := Min(it.amount, cur.value.amount);
      var left := cur.value.amount - r;
      var v := if left == 0 then None else Some(cur.value.(amount := left));
      Outcome(c.(slots := c.slots[s := v], dirty := true), Result(it.amount, r, [s]))
  }

  /** The unit branch of `remove`: clear each slot holding the id that the
      circular scan from `s` meets, until the amount is cleared or the scan ends. */
  function TakeUnits(c: Container, it: Item, s: nat): (o: Outcome)
    requires StartOk(c.slots, s) && it.amount >= 1
    ensures |o.container.slots| == |c.slots| && o.container.policy == c.policy && o.container.dirty
    ensures o.result.requested == it.amount
    ensures 0 <= o.result.completed <= it.amount
    ensures o.result.completed == |o.result.affected|
    ensures forall k :: 0 <= k < |o.result.affected| ==> o.result.affected[k] < |c.slots|
    ensures Valid(c.slots) ==> Valid(o.container.slots)
  {
    var hits := ScanHits(c.slots, Holds(it.id), s);
    ScanHitsFacts(c.slots, Holds(it.id), s);
    var taken := hits[..Min(it.amount, |hits|)];
    StampFacts(c.slots, taken, None);
    Outcome(c.(slots := Stamp(c.slots, taken, None), dirty := true), Result(it.amount, |taken|, taken))
  }

  /** The source's unit-placing loop of `add`, run imperatively: it
      computes exactly the unit branch. */
  method AddUnitsLoop(c: Container, it: Item, s: nat) returns (o: Outcome)
    requires StartOk(c.slots, s) && it.amount >= 1
    ensures o == AddUnits(c, it, s)
  {
    var out, affected, left := ScanStamp(c.slots, Free, Some(Item(it.id, 1, it.hasProperties)), s, it.amount);
    o := Outcome(c.(slots := out, dirty := true), Result(it.amount, it.amount - left, affected));
  }

  /** The source's unit-clearing loop of `remove`, run imperatively: it
      computes exactly the unit branch. */
  method TakeUnitsLoop(c: Container, it: Item, s: nat) returns (o: Outcome)
    requires StartOk(c.slots, s) && it.amount >= 1
    ensures o == TakeUnits(c, it, s)
  {
    var out, affected, left := ScanStamp(c.slots, Holds(it.id), None, s, it.amount);
    o := Outcome(c.(slots := out, dirty := true), Result(it.amount, it.amount - left, affected));
  }

  /** A positive `count` needs at least one slot. */
  lemma CountNeedsSlots(slots: seq<Slot>, defs: Catalog, id: Int32)
    ensures Count(slots, defs, id) >= 1 ==> |slots| > 0
  {
    if |slots| == 0 {
      assert CountScan(slots, id, defs(id).stackable, 0) == 0;
    }
  }

  /** `remove(Item, boolean, int)`: nothing for an absent item or a
      non-positive amount; nothing when the id is not held at all or,
      unless forced, when less is held than asked for; then the stack or
      unit branch. */
  function Remove(c: Container, defs: Catalog, item: Option<Item>, force: bool, start: int): (o: Outcome)
    requires StartOk(c.slots, start)
    ensures |o.container.slots| == |c.slots| && o.container.policy == c.policy
    ensures o.result.requested == if item.None? then -1 else item.value.amount
    ensures item.None? || item.value.amount <= 0 ==>
              o.container == c && o.result.completed == 0 && o.result.affected == []
    ensures item.Some? && item.value.amount >= 1 ==>
              var amt := Count(c.slots, defs, item.value.id);
              (amt < 1 || (!force && item.value.amount > amt)) ==>
                o == Outcome(c, Result(item.value.amount, 0, []))
    ensures o.result.requested >= 0 ==> o.result.completed <= o.result.requested
    ensures forall k :: 0 <= k < |o.result.affected| ==> o.result.affected[k] < |c.slots|
    ensures o.container.slots != c.slots ==> o.container.dirty
    ensures Valid(c.slots) ==> Valid(o.container.slots) && o.result.completed >= 0
  {
    if item.None? then Outcome(c, Result(-1, 0, []))
    else if item.value.amount <= 0 then Outcome(c, Result(item.value.amount, 0, []))
    else
      var it := item.value;
      var amt := Count(c.slots, defs, it.id);
      if amt < 1 || (!force && it.amount > amt) then Outcome(c, Result(it.amount, 0, []))
      else if IsStackable(it, c.policy, defs(it.id)) then
        CountNeedsSlots(c.slots, defs, it.id);
        TakeStack(c, it, Clamp(start))
      else TakeUnits(c, it, Clamp(start))
  }

  /** `add(Item, boolean)`, and `add(Item)` with `force` false. The start
      it passes, `min(0, slotOf(id))`, is never above 0. */
  function AddDefault(c: Container, defs: Catalog, item: Option<Item>, force: bool): (o: Outcome)
    ensures o == Add(c, defs, item, force, 0)
  {
    if item.None? || item.value.amount <= 0 then Add(c, defs, item, force, 0)
    else Add(c, defs, item, force, Min(0, SlotOf(c.slots, item.value.id)))
  }

  /** `remove(int, boolean)`: one unit of the id, from its first slot. */
  function RemoveId(c: Container, defs: Catalog, id: Int32, force: bool): (o: Outcome)
    ensures o == RemoveItem(c, defs, OneOf(id), force)
  {
    var f := FindFirst(c.slots, id);
    Remove(c, defs, Some(OneOf(id)), force, if f.None? then -1 else f.value.slot)
  }

  /** `remove(int, boolean, int)`: one unit of the id, from a given start.
      An absent id is refused with nothing changed; otherwise at most the
      one unit is taken, and a valid container stays valid. */
  function RemoveIdAt(c: Container, defs: Catalog, id: Int32, force: bool, start: int): (o: Outcome)
    requires StartOk(c.slots, start)
    ensures o.result.requested == 1 && o.result.completed <= 1
    ensures Count(c.slots, defs, id) < 1 ==> o == Outcome(c, Result(1, 0, []))
    ensures Valid(c.slots) ==> 0 <= o.result.completed && Valid(o.container.slots)
    ensures |o.container.slots| == |c.slots| && o.container.policy == c.policy
  {
    Remove(c, defs, Some(OneOf(id)), force, start)
  }

  /** `remove(Item, boolean)`: starts at the first slot holding the id.
      The source reads the item's id before any null check, so the item is
      always present here. */
  function RemoveItem(c: Container, defs: Catalog, item: Item, force: bool): (o: Outcome)
    ensures o.result.requested == item.amount
  {
    SlotOfIsFindFirst(c.slots, item.id);
    Remove(c, defs, Some(item), force, SlotOf(c.slots, item.id))
  }
}
